=== FILE: README.md ===
# Joystick camera controller: JSON scanner and settings rules in Dafny

This project models the self-contained logic of a Windows joystick-to-camera
controller:

- the tolerant JSON scanner in `src/JsonUtils.cpp`, which reads camera-API response bodies:
  - `TryParseReturnHomeDisabled` reads the `returnHomeAfterInactivityMs` field. It tries the
    copy inside the `"ptz"` object first and then the whole body. `null` and values ≤ 0 mean
    "return home disabled".
  - `TryParseCameraList` walks the top-level `{…}` objects of a body and keeps one camera
    (`id`, `name`, `state`) per object that has a non-empty `id`.
  - the private helpers behind them:
    - `TryExtractJsonObjectRange` and `TryExtractNextJsonObjectRange`, the string-aware brace counters;
    - `TryParseJsonString`, the string-literal decoder with its escapes;
    - `SkipJsonValue`, which skips strings, containers and bare tokens;
    - `TryParseCameraInfo`, the per-object member loop;
    - `TryParseReturnHomeDisabledFromRange`, the field lookup inside a window;
- `TrimWide` in `src/StringUtils.cpp`;
- the two pure decisions inside `src/JoystickApp.cpp`:
  - the checks and writes of `SaveSettingsDialog`;
  - the `/noxinput` test of `ShouldFilterXInputDevices`.

Every operation is a pure function over `seq<char>`. A C++ `bool Try…(…, T* out)` becomes an
`Option<T>` result: `None` is the `false` return and `Some(v)` the `true` return with `*out = v`.
The scanners are written as the loops they are, one recursive call per iteration. Most of them
are paired with an independent reference definition and a lemma connecting the two:

- `StateAt` is the state of the string-aware counter after a prefix.
- `ClosesAt` and `OpensAt` say where the counter sees a matching `}` or an unquoted `{`.
- `NextObject` is "the first unquoted `{` and its match".
- `EscapedAt` and `ClosesLiteral` say which quote ends a string literal.
- `Quote` is how a serializer writes a string: quotes, backslashes and control characters
  escaped, as `\b \f \n \r \t` or `\u00XX`. The decoder is proved to invert it.
- `FirstColon` and `ValueAfter` say where the value of a key starts.
- `ReturnHome.Render` gives the four shapes the return-home field takes in the camera API.
  The whole parser is proved to read each back as its meaning.
- `CamerasAfter` is the camera list in terms of the first object; the list loop is proved
  to equal it, through the law that the loop's accumulator only ever grows at the back.
- `TrimmedAt` is "a slice with only blanks around it".
- `Complete` is "a settings form that passes", and `LoadForm` reads the saved writes back.

The exceptions: the member loop of `TryParseCameraInfo` is connected to a reference only for
the compact layout a serializer writes (see "Left out"), and the small skip loops
(`SkipSpaces`, `SkipSeparators`, `SkipToken`) are characterised directly by what they pass and
where they stop.

Modules, one per file:

- `Wrappers`: `Option`.
- `Text`: C-locale `isspace`, `std::string::find` and the small skip loops.
- `StringUtils`: `TrimWide`.
- `JsonString`: `TryParseJsonString`.
- `JsonScan`: the bracket counters and `SkipJsonValue`.
- `ReturnHome`: `TryParseReturnHomeDisabled` and its window lookup.
- `CameraList`: `TryParseCameraInfo` and `TryParseCameraList`.
- `JoystickApp`: settings validation and the command-line switch.

Points where the code's behaviour is easy to misread, all modelled as the code has them:

- A value is taken as `null` when it merely starts with `null` or `NULL` (`nullable`, say).
  Other capitalisations are not taken as `null`.
- A bare number is read by `strtoll` from the body itself, not from the window. This would
  matter only for a window that does not end in a non-digit; neither caller passes one, since
  the `ptz` window ends at its closing brace and the other lookup uses the whole body.
- A quoted number may have white space and a sign before its digits, since `strtoll` accepts
  them. After its digits only the end of the quoted text is accepted, or an embedded NUL
  character, because the test is `*endPtr != '\0'` on a C string.
- "Top-level object" means brace depth only:
  - square brackets are not counted;
  - every object directly inside a top-level array is its own candidate;
  - a `}` met before any `{` is ignored.
- Inside an object, the member loop stops at the first `}` found where a key is expected.

## Model

| member | source | states |
|---|---|---|
| StringUtils.TrimStart | src/StringUtils.cpp:44-46 | the leading loop stops at the first code unit above space (or the end), having passed only units ≤ space |
| StringUtils.TrimEnd | src/StringUtils.cpp:48-50 | the trailing loop never moves below `start`, passes only units ≤ space, and stops after a unit above space or at `start` |
| StringUtils.TrimWide | src/StringUtils.cpp:39-53 | empty input is returned unchanged; the result is no longer than the input; a non-empty result starts and ends with a unit above space; the result is empty exactly when every unit is ≤ space; the result is a contiguous slice of the input with only blanks on either side |
| StringUtils.TrimUnique | src/StringUtils.cpp:39-53 | any slice of the input with only blanks around it and non-blank ends (or empty) is exactly what `TrimWide` returns |
| StringUtils.TrimIdempotent | src/StringUtils.cpp:44-52 | trimming twice gives the same as trimming once |
| JsonString.CodePointValue | src/JsonUtils.cpp:180-195 | the four-digit loop succeeds exactly when all four digits are hexadecimal, and then yields their positional value, below 0x10000 |
| JsonString.HexDigitTable | src/JsonUtils.cpp:185-194 | a character is accepted as a hexadecimal digit exactly when it is the digit of some value 0-15 in lower or upper case, and it then reads as that value |
| JsonString.TryParseJsonString | src/JsonUtils.cpp:152-230 | fails when `start > end` or `body[start]` is not `"`; on success `outNext` is one past the closing quote, at least `start + 2` and at most `end + 1`, and the value is no longer than the literal |
| JsonString.DecodeFindsFirstQuote | src/JsonUtils.cpp:163-227 | the decoding loop succeeds only at an unescaped quote, and at the first one |
| JsonString.TryParseJsonStringFirstQuote | src/JsonUtils.cpp:157-229 | a literal ends one past its first unescaped quote, and fails when there is no unescaped quote up to `end`, even when an escaped one is there |
| JsonString.DecodeHexEscape | src/JsonUtils.cpp:178-202 | a `\u` escape of any 16-bit code, written with lower-case digits, appends that character when the code is at most 0x7F and `?` above, and decoding resumes after its four digits |
| JsonString.DecodeOtherEscape | src/JsonUtils.cpp:166-205 | a backslash followed by a character with no escape of its own (`/`, `q`, …) appends that character |
| JsonString.DecodeBadUnicode | src/JsonUtils.cpp:178-195 | a `\u` escape fails when fewer than four characters follow it up to `end` or one of them is not a hexadecimal digit |
| JsonString.WritingRead | src/JsonUtils.cpp:166-205 | every character has a written form (itself, a two-character escape or `\u00XX`) that the decoder accepts and reads back as that character |
| JsonString.DecodeRendered | src/JsonUtils.cpp:163-215 | decoding any accepted written form appends the character it stands for and resumes right after it |
| JsonString.DecodeEscaped | src/JsonUtils.cpp:163-227 | decoding the serializer's text of any value (quotes, backslashes and control characters escaped) followed by a quote yields that value and stops right after the quote |
| JsonString.QuoteRoundTrip | src/JsonUtils.cpp:152-230 | the literal a serializer writes for any value, with `\"`, `\\`, `\b`, `\f`, `\n`, `\r`, `\t` and `\u00XX` escapes, placed anywhere before `end`, parses back to that value and resumes right after it |
| JsonScan.ScanClose | src/JsonUtils.cpp:248-290 | a reported index lies in the scanned range and holds the closing bracket |
| JsonScan.ScanCloseFindsFirst | src/JsonUtils.cpp:32-79 | the counting loop reports exactly the first position where the reference counter sees a closing bracket at depth one outside strings, and reports none when there is no such position |
| JsonScan.MatchClose | src/JsonUtils.cpp:245-292 | the bracket matching the one at `p` is found exactly when one exists below the limit, and it is the first such |
| JsonScan.LocateValue | src/JsonUtils.cpp:17-30 | no value without the key; a located value is a non-space character after the end of the key's first occurrence |
| JsonScan.LocateValueAt | src/JsonUtils.cpp:94-107 | the value starts at `p` exactly when the key occurs and `p` is the first non-blank character after the first colon that follows the key's first occurrence |
| JsonScan.LocateValueNone | src/JsonUtils.cpp:94-107 | the lookup fails exactly when the key is missing, no colon follows it, or only white space follows that colon |
| JsonScan.TryExtractJsonObjectRange | src/JsonUtils.cpp:12-82 | fails without the key; on success start < end, `body[start]` is `{` where the key's value starts, and `body[end]` is the first `}` that matches it outside string literals |
| JsonScan.ExtractAt | src/JsonUtils.cpp:12-82 | conversely, when the key's value is a `{`, the first later index at which its braces close outside strings is what the extraction returns |
| JsonScan.FindOpen | src/JsonUtils.cpp:318-350 | the search phase stops only at a `{` |
| JsonScan.FindOpenFindsFirst | src/JsonUtils.cpp:318-350 | the search phase finds exactly the first `{` outside string literals, and none when there is none |
| JsonScan.NextObjectLoopMatching | src/JsonUtils.cpp:318-366 | once an object is open, the loop ends exactly where the bracket counter does |
| JsonScan.NextObjectLoopSearching | src/JsonUtils.cpp:318-366 | before an object opens, the loop (which ignores a `}` at depth zero) equals the search for the first unquoted `{` followed by the bracket counter from there |
| JsonScan.TryExtractNextJsonObjectRange | src/JsonUtils.cpp:308-369 | equals the reference "first unquoted `{` at or after `searchStart` with its match"; on success `searchStart` ≤ start < end < size, with no unquoted `{` before start and no earlier match; fails when no `{` outside strings follows |
| JsonScan.ScanPlainRun | src/JsonUtils.cpp:248-290 | characters other than a quote and the two brackets leave the counter unchanged |
| JsonScan.ScanEscapedRun | src/JsonUtils.cpp:251-265 | inside a string literal, the serializer's text of any value (including escaped quotes, backslashes, control characters and braces) and its closing quote are passed over without counting |
| JsonScan.ScanQuoted | src/JsonUtils.cpp:251-272 | a whole string literal leaves the counter as it was, whatever braces it holds |
| JsonScan.SkipToken | src/JsonUtils.cpp:295-301 | the bare-token loop stops at the first `,`, `}` or `]`, or past `end` |
| JsonScan.SkipJsonValue | src/JsonUtils.cpp:232-306 | fails past `end`; a string is skipped through its closing quote, an object or array through its matching bracket; a bare token always succeeds and stops at the first delimiter; the result is at most `end + 1` |
| JsonScan.SkipJsonValueSpec | src/JsonUtils.cpp:232-306 | an object or array ends at the FIRST bracket that matches its opening one and fails when none does up to `end`; a string ends at its first unescaped quote and fails when there is none |
| ReturnHome.Saturate | src/JsonUtils.cpp:131-148 | the value `strtoll` returns stays within the 64-bit range, equals the exact value inside it, and keeps its sign |
| ReturnHome.DigitsValueAt | src/JsonUtils.cpp:143 | the digit accumulation over a run of digits is its decimal value |
| ReturnHome.StrToLL | src/JsonUtils.cpp:131-132 | `endPtr` stays at the start (value 0) exactly when no digit follows the leading white space and optional sign; otherwise it lands at the end of that digit run |
| ReturnHome.ReadBareNeedsDigit | src/JsonUtils.cpp:141-149 | a bare value (not quoted, not a `null` prefix) gives no result exactly when `strtoll` finds no digit after the white space and sign: `true` and `-x` fail |
| ReturnHome.ReadQuotedUnclosed | src/JsonUtils.cpp:116-121 | a quoted value with no closing quote inside the window gives no result |
| ReturnHome.ReadQuotedNeedsWholeNumber | src/JsonUtils.cpp:116-139 | a quoted value other than `null`/`NULL` gives no result exactly when `strtoll` finds no digit, or its digits are followed by a character other than the end or a NUL: `"abc"`, `"12ab"` and `"nullx"` fail |
| ReturnHome.DecimalValueOfNatText | src/JsonUtils.cpp:143 | the decimal text of a number has that number as its value |
| ReturnHome.StrToLLReadsIntText | src/JsonUtils.cpp:131-148 | `strtoll` reads back the decimal text of any integer followed by a non-digit, clamped to the 64-bit range |
| ReturnHome.FieldFromRange | src/JsonUtils.cpp:84-107 | an invalid window, or a window without the key, gives no result |
| ReturnHome.FieldReadsAt | src/JsonUtils.cpp:89-107 | the window lookup reads the value at the first non-blank character after the first colon that follows the key's first occurrence |
| ReturnHome.NoValueFailsInRange | src/JsonUtils.cpp:98-107 | a key with no colon after it, or only white space after that colon, gives no result |
| ReturnHome.NoValueFails | src/JsonUtils.cpp:463-477 | a body whose first key has no colon after it, or only white space after that colon, gives no result |
| ReturnHome.NoValueFailsInPtz | src/JsonUtils.cpp:463-472 | the `ptz` attempt then fails too: its window ends at a `}`, so a colon after the window's key would be followed by it |
| ReturnHome.TryParseReturnHomeDisabledFromRange | src/JsonUtils.cpp:84-150 | fails on an invalid window and when the window does not contain `"returnHomeAfterInactivityMs"` |
| ReturnHome.AbsentKeyFailsInRange | src/JsonUtils.cpp:93-96 | a body without the key fails in every window |
| ReturnHome.AbsentKeyFails | src/JsonUtils.cpp:463-477 | a body without the key fails in both the `ptz` attempt and the whole-body attempt |
| ReturnHome.TryParseReturnHomeDisabled | src/JsonUtils.cpp:463-477 | fails on an empty body and without the key; a successful `ptz` attempt is the answer; otherwise the answer is the whole-body attempt |
| ReturnHome.ReadJsonNull | src/JsonUtils.cpp:109-114 | `null` or `NULL` at the value's position inside the window gives disabled, whatever follows it (`nullable` too, and at the window's end) |
| ReturnHome.ClosingQuote | src/JsonUtils.cpp:118-123 | the closing quote of a quoted value without inner quotes is the next quote, and the text between is the value |
| ReturnHome.ReadQuotedNull | src/JsonUtils.cpp:116-129 | a quoted `"null"` or `"NULL"` gives disabled |
| ReturnHome.ReadBareNumber | src/JsonUtils.cpp:141-149 | a bare number that `strtoll` reads in full gives disabled exactly when it is ≤ 0 |
| ReturnHome.ReadNumber | src/JsonUtils.cpp:141-149 | the decimal text of any integer, followed by a non-digit, gives disabled exactly when the integer is ≤ 0 |
| ReturnHome.ReadQuotedNumber | src/JsonUtils.cpp:116-139 | a quoted integer gives disabled exactly when it is ≤ 0 |
| ReturnHome.ReadValueOf | src/JsonUtils.cpp:109-149 | each shape of the value (`null`, `"null"`, a number, a quoted number) reads back as its meaning: disabled for `null` and values ≤ 0, enabled for positive values |
| ReturnHome.KeyColon | src/JsonUtils.cpp:94-107 | with the key's first occurrence at `k` and a colon right after it, the value is located just after the colon |
| ReturnHome.RangeReadsField | src/JsonUtils.cpp:89-107 | `<key>:<value>` at the key's first occurrence in a window makes the lookup read that value |
| ReturnHome.FirstMemberReads | src/JsonUtils.cpp:89-107 | the first member of an object, right after its `{`, is the one the window lookup reads |
| ReturnHome.PtzBodyObject | src/JsonUtils.cpp:12-82 | in a camera body `{"ptz":{"returnHomeAfterInactivityMs":<value>}}` the `ptz` object is found at its braces |
| ReturnHome.PtzRangeRead | src/JsonUtils.cpp:84-107 | inside that `ptz` object the lookup reads the value after the key |
| ReturnHome.PtzBodyRoundTrip | src/JsonUtils.cpp:463-477 | the whole parser reads a `ptz` object holding `null`, `"null"`, a number or a quoted number as that value's meaning |
| CameraList.SkipSeparatorsSpec | src/JsonUtils.cpp:389-390 | the separator loop passes only white space and commas, and stops at the first other character or past `end` |
| CameraList.ReadKey | src/JsonUtils.cpp:401-415 | a complete key literal followed by `:`, with white space allowed on either side, makes the loop read the value at the first non-blank character after the colon |
| CameraList.KeyWithoutValue | src/JsonUtils.cpp:406-415 | a key not followed, after white space, by `:`, or whose `:` is followed only by white space up to the range's end, fails the whole object |
| CameraList.ReadStringValue | src/JsonUtils.cpp:417-444 | a string value is stored under a kept key, skipped under any other, and the loop resumes after its closing quote |
| CameraList.MemberStep | src/JsonUtils.cpp:387-445 | one member `"key":"value"` as a serializer writes it is read as `SetField(key, value)` and the loop resumes after it |
| CameraList.CommaStep | src/JsonUtils.cpp:389-390 | a comma between members is passed over |
| CameraList.CloseStep | src/JsonUtils.cpp:392-393 | the loop stops at a `}` with the fields read so far |
| CameraList.ObjectRead | src/JsonUtils.cpp:382-445 | the member loop over an object of three string members stores the three values in order |
| CameraList.TryParseCameraInfo | src/JsonUtils.cpp:371-458 | fails on an invalid range and when `body[start]` is not `{`; a camera it returns has a non-empty id and a non-empty name |
| CameraList.CameraRoundTrip | src/JsonUtils.cpp:371-458 | a camera written as `{"id":…,"name":…,"state":…}` anywhere in a body parses back to itself, with the id standing in for an empty name, and is rejected exactly when its id is empty |
| CameraList.CameraListNamed | src/JsonUtils.cpp:489-495 | every camera in the list has a non-empty id and name |
| CameraList.CameraListKeeps | src/JsonUtils.cpp:489-495 | the list loop never removes a camera already collected, including when it meets an unterminated object or an object that is not a camera |
| CameraList.CameraListFirst | src/JsonUtils.cpp:489-495 | the camera of the next object comes directly after those already collected, so cameras are appended in body order |
| CameraList.CameraListAccumulates | src/JsonUtils.cpp:486-495 | what the list loop has collected stays in front of what it collects from any point on, so the loop is the cameras collected from empty appended to what came before |
| CameraList.CamerasUnfold | src/JsonUtils.cpp:484-495 | the cameras of a body are none without a top-level object, otherwise the first object's camera, if it is one, followed by the cameras after it |
| CameraList.TryParseCameraList | src/JsonUtils.cpp:479-498 | succeeds exactly when an output list is given; then every camera in it has a non-empty id and name, and the list is empty without a top-level object, and otherwise the camera of the first object (if it is one) followed by the cameras after that object |
| JoystickApp.DialogText | src/JoystickApp.cpp:30-38 | a field read is a prefix of the control's text of at most 511 units, and the whole text when it fits |
| JoystickApp.ReadForm | src/JoystickApp.cpp:69-73 | each field read is a slice of what the control hands back with only blanks around it and no blank at either end, and the check box is read as is |
| JoystickApp.ReadFormIdempotent | src/JoystickApp.cpp:69-94 | reading a form that was already read gives it back unchanged, so no check's outcome changes |
| JoystickApp.Validate | src/JoystickApp.cpp:75-94 | an empty address is rejected first, whatever else the form holds; validation never reports a write failure |
| JoystickApp.ValidateComplete | src/JoystickApp.cpp:75-94 | the form passes exactly when it has an address and, in API-key mode, a key, or otherwise a user name and a password |
| JoystickApp.ValidateIgnoresOtherMode | src/JoystickApp.cpp:82-94 | in API-key mode the user name and password do not matter; in credential mode the key does not |
| JoystickApp.WritesMade | src/JoystickApp.cpp:96-101 | the `&&` chain makes writes up to and including the first failing one: all earlier ones succeeded, and it stops short only after a failure |
| JoystickApp.SettingsRoundTrip | src/JoystickApp.cpp:96-101 | the five writes of a save store every field under its own name, so `LoadForm`, reading the writes alone, gives back the saved form, the flag 1 or 0 ticking the box exactly when API-key mode was on |
| JoystickApp.SaveTrimmed | src/JoystickApp.cpp:75-112 | the dialog closes exactly when no error is shown, the notifications go out exactly when it closes, and the writes made are a prefix of the five writes |
| JoystickApp.SaveSettings | src/JoystickApp.cpp:67-113 | only trimmed values are written, and notifications go out only for a complete form |
| JoystickApp.SaveNotifies | src/JoystickApp.cpp:96-112 | the configuration-changed and camera-refresh notifications happen exactly when the form is complete and all five writes succeed |
| JoystickApp.SaveWrites | src/JoystickApp.cpp:75-105 | a refused form writes nothing; a complete form makes at least one write, every write but the last succeeded, and fewer than five writes follow a failure |
| JoystickApp.SaveStoresForm | src/JoystickApp.cpp:67-112 | after a save that closes the dialog, `LoadForm`, reading the writes alone, gives back exactly the trimmed form |
| JoystickApp.SaveReportsFirstError | src/JoystickApp.cpp:75-109 | the message shown is that of the first failing check in the order address, key, credentials, and the write-failure message only for a complete form with a failed write |
| JoystickApp.LowerMatchesLetter | src/JoystickApp.cpp:149 | against a lower-case letter, the case-insensitive comparison accepts exactly that letter and its capital |
| JoystickApp.FilterFromExists | src/JoystickApp.cpp:139-155 | the argument loop sets the switch exactly when some argument from the current index on is a non-null switch argument |
| JoystickApp.FilterSwitchOn | src/JoystickApp.cpp:131-159 | the switch is on exactly when the command line was parsed and some argument after the program's own is `/noxinput` or `-noxinput` |
| JoystickApp.SwitchArgShape | src/JoystickApp.cpp:145-149 | an argument matches exactly when it is `/` or `-`, then the eight letters of `noxinput` each in lower or upper case, then its end, or an embedded NUL that ends it for the C code |

## Left out

- Reading a dialog control, the registry, the command line and the message boxes is I/O. These become parameters:
  - the control texts;
  - the check-box state;
  - one success flag per registry write;
  - the parsed argument list.
- `Utf8ToWide` and `WideToUtf8` (src/StringUtils.cpp:5-37) wrap a Windows conversion. Camera fields are kept as decoded, which is the identity conversion for ASCII text.
- The string-decoding functions read bytes. The model reads characters, so a multi-byte UTF-8 sequence is a run of characters here, as in the byte loop.
- `_wcsnicmp` and `isspace` follow the "C" locale: `_wcsnicmp` folds only the ASCII capitals, and `isspace` accepts the six C white-space characters.
- `strtoll` is modelled with unbounded integers and an explicit clamp to the 64-bit range. `errno` is not modelled; the code does not read it.
- The list loop of `TryParseCameraList` is modelled by the recursive `CameraListFrom`. It has one step per loop iteration, carrying the collected list as its accumulator. A null output pointer is `hasList == false`.
- CameraList.CameraRoundTrip: the round trip covers the compact layout a serializer writes. Objects with white space between tokens, or with other members, have no whole-object statement; their steps are stated one by one: white space and commas between members (SkipSeparatorsSpec), white space around the colon (ReadKey, KeyWithoutValue), string values (ReadStringValue) and the closing brace (CloseStep).
- ReturnHome.PtzBodyRoundTrip: the round trip covers the compact `{"ptz":{…}}` body. A field elsewhere in the body is covered by the window-level lemmas.
- JoystickApp.DialogText: the 511-unit limit is counted in characters. A `string` holds Unicode scalar values, while the dialog buffer counts UTF-16 code units, so for text outside the Basic Multilingual Plane the code cuts elsewhere and can split a surrogate pair.
- JoystickApp.LoadForm: the settings are read back from the writes of a save alone. The registry itself, and the fallback of `ReadRegistryString` and `ReadRegistryDword` to the machine-wide key when the user's value is empty or missing (src/RegistryUtils.cpp:70-83), are not modelled.
- JoystickApp.SettingsRoundTrip: the round trip is stated for `LoadForm`, which reads the writes alone. A reload by `LoadSettingsDialog` goes through `ReadRegistryString`, so an empty user name, password or API key, which the other mode allows, would come back as the machine-wide value (src/RegistryUtils.cpp:73-78).
- JoystickApp.SaveStoresForm: the same gap as JoystickApp.SettingsRoundTrip; the saved form is what `LoadForm` gives back, not necessarily what `LoadSettingsDialog` shows.
- The dialog procedures, timers, device polling, the XInput device enumeration, the network samples and the logging are outside this model. They are UI, I/O, floating point or foreign calls with no self-contained logic.

=== FILE: camera_list.dfy ===
/** `TryParseCameraInfo` and `TryParseCameraList`: the cameras of the camera
    API's JSON, one per top-level object that carries a non-empty `"id"`. */
module CameraList {
  import opened Wrappers
  import opened Text
  import opened JsonString
  import opened JsonScan

  /** A camera as the application keeps it. The text conversion from UTF-8 to
      wide characters is the identity here. */
  datatype CameraInfo = CameraInfo(id: string, name: string, state: string)

  const NoFields: CameraInfo := CameraInfo([], [], [])

  /** The keys whose string values are kept. */
  predicate IsCameraKey(key: string) {
    key == "id" || key == "name" || key == "state"
  }

  /** Store a kept value; a later copy of the same key replaces an earlier one. */
  function SetField(acc: CameraInfo, key: string, value: string): (r: CameraInfo)
    ensures key == "id" ==> r == acc.(id := value)
    ensures key == "name" ==> r == acc.(name := value)
    ensures key == "state" ==> r == acc.(state := value)
    ensures !IsCameraKey(key) ==> r == acc
  {
    if key == "id" then acc.(id := value)
    else if key == "name" then acc.(name := value)
    else if key == "state" then acc.(state := value)
    else acc
  }

  /** The loop `while (pos <= end && (isspace(body[pos]) || body[pos] == ',')) ++pos;`. */
  function SkipSeparators(s: string, i: nat, limit: nat): (j: nat)
    requires i <= limit <= |s|
    decreases limit - i
    ensures i <= j <= limit
  {
    if i < limit && (IsSpace(s[i]) || s[i] == ',') then SkipSeparators(s, i + 1, limit) else i
  }

  /** The separator loop passes only white space and commas, and stops at the
      first other character or at the limit. */
  lemma {:induction false} SkipSeparatorsSpec(s: string, i: nat, limit: nat)
    requires i <= limit <= |s|
    ensures var j := SkipSeparators(s, i, limit);
      && (forall k :: i <= k < j ==> IsSpace(s[k]) || s[k] == ',')
      && (j == limit || !(IsSpace(s[j]) || s[j] == ','))
    decreases limit - i
  {
    if i < limit && (IsSpace(s[i]) || s[i] == ',') {
      SkipSeparatorsSpec(s, i + 1, limit);
    }
  }

  /** The member loop of `TryParseCameraInfo`, resumed at `pos` with the
      values kept so far: separators are skipped, then one member is read. */
  function FieldsLoop(s: string, pos: nat, end: nat, acc: CameraInfo): (r: Option<CameraInfo>)
    requires pos <= end + 1 <= |s|
    decreases end + 1 - pos, 2
  {
    MemberAt(s, SkipSeparators(s, pos, end + 1), end, acc)
  }

  /** One pass of the member loop at `p`, after the separators: stop at the
      closing brace or past `end`, step over a character other than `"`, or
      read a key and its `:`. `None` is the early `return false` for a key
      that is not a complete string, a missing `:` or nothing after it. */
  function MemberAt(s: string, p: nat, end: nat, acc: CameraInfo): (r: Option<CameraInfo>)
    requires p <= end + 1 <= |s|
    decreases end + 1 - p, 1
  {
    if p > end || s[p] == '}' then Some(acc)
    else if s[p] != '"' then FieldsLoop(s, p + 1, end, acc)
    else match TryParseJsonString(s, p, end)
      case None => None
      case Some((next, key)) =>
        var c := SkipSpaces(s, next, end + 1);
        if c > end || s[c] != ':' then None
        else
          var v := SkipSpaces(s, c + 1, end + 1);
          if v > end then None
          else ValueAt(s, v, end, key, acc)
  }

  /** The value of the member named `key`, starting at `v`: the string value
      of a kept key is stored, any other value is skipped. `None` when the
      value cannot be parsed or skipped. */
  function ValueAt(s: string, v: nat, end: nat, key: string, acc: CameraInfo): (r: Option<CameraInfo>)
    requires v <= end < |s|
    decreases end + 1 - v, 3
  {
    if IsCameraKey(key) && s[v] == '"' then
      match TryParseJsonString(s, v, end)
      case None => None
      case Some((after, value)) => FieldsLoop(s, after, end, SetField(acc, key, value))
    else
      match SkipJsonValue(s, v, end)
      case None => None
      case Some(after) => FieldsLoop(s, after, end, acc)
  }

  /** The camera a completed member loop describes: none without an id, and
      the id standing in for a missing name. */
  function Finish(f: CameraInfo): (r: Option<CameraInfo>)
    ensures r.Some? <==> f.id != []
    ensures r.Some? ==> r.value.id == f.id && r.value.state == f.state
    ensures r.Some? ==> r.value.name == (if f.name == [] then f.id else f.name)
  {
    if f.id == [] then None
    else Some(CameraInfo(f.id, if f.name == [] then f.id else f.name, f.state))
  }

  /** Parse the object `s[start..end]` (a `{` at `start`) into a camera. */
  function TryParseCameraInfo(s: string, start: nat, end: nat): (r: Option<CameraInfo>)
    ensures start >= |s| || end >= |s| || start >= end ==> r.None?
    ensures start < end < |s| && s[start] != '{' ==> r.None?
    ensures r.Some? ==> r.value.id != [] && r.value.name != []
  {
    if start >= |s| || end >= |s| || start >= end then None
    else if s[start] != '{' then None
    else match FieldsLoop(s, start + 1, end, NoFields)
      case None => None
      case Some(f) => Finish(f)
  }

  /** The cameras an optional camera contributes. */
  function Kept(c: Option<CameraInfo>): seq<CameraInfo> {
    if c.Some? then [c.value] else []
  }

  /** The list loop resumed at `searchStart` with `found` already collected:
      each top-level object is parsed, a camera is appended, an object that
      is not a camera is passed over, and the search resumes after it. */
  function CameraListFrom(s: string, searchStart: nat, found: seq<CameraInfo>): seq<CameraInfo>
    requires searchStart <= |s|
    decreases |s| - searchStart
  {
    match TryExtractNextJsonObjectRange(s, searchStart)
    case None => found
    case Some((a, b)) => CameraListFrom(s, b + 1, found + Kept(TryParseCameraInfo(s, a, b)))
  }

  /** The cameras of a whole body. */
  function Cameras(s: string): seq<CameraInfo> {
    CameraListFrom(s, 0, [])
  }

  /** Every listed camera has an id and a name. */
  lemma {:induction false} CameraListNamed(s: string, searchStart: nat, found: seq<CameraInfo>)
    requires searchStart <= |s|
    requires forall k :: 0 <= k < |found| ==> found[k].id != [] && found[k].name != []
    ensures forall k :: 0 <= k < |CameraListFrom(s, searchStart, found)| ==>
      CameraListFrom(s, searchStart, found)[k].id != [] && CameraListFrom(s, searchStart, found)[k].name != []
    decreases |s| - searchStart
  {
    match TryExtractNextJsonObjectRange(s, searchStart)
    case None =>
    case Some((a, b)) =>
      CameraListNamed(s, b + 1, found + Kept(TryParseCameraInfo(s, a, b)));
  }

  /** The list loop never drops what it has already collected: an object
      that fails to parse, or an unterminated object at the end of the body,
      appends nothing and removes nothing. */
  lemma {:induction false} CameraListKeeps(s: string, searchStart: nat, found: seq<CameraInfo>)
    requires searchStart <= |s|
    ensures found <= CameraListFrom(s, searchStart, found)
    decreases |s| - searchStart
  {
    match TryExtractNextJsonObjectRange(s, searchStart)
    case None =>
    case Some((a, b)) =>
      var more := found + Kept(TryParseCameraInfo(s, a, b));
      CameraListKeeps(s, b + 1, more);
      assert found <= more;
  }

  /** Cameras are appended in body order: the camera of the first object
      after `searchStart` comes directly after those already collected. */
  lemma CameraListFirst(s: string, searchStart: nat, found: seq<CameraInfo>, a: nat, b: nat, c: CameraInfo)
    requires searchStart <= |s|
    requires TryExtractNextJsonObjectRange(s, searchStart) == Some((a, b))
    requires TryParseCameraInfo(s, a, b) == Some(c)
    ensures found + [c] <= CameraListFrom(s, searchStart, found)
  {
    CameraListKeeps(s, b + 1, found + [c]);
  }

  /** `TryParseCameraList`: `hasList` is whether the caller passed a vector;
      without one the call fails, otherwise the vector is cleared and receives
      the cameras. */
  function TryParseCameraList(body: string, hasList: bool): (r: Option<seq<CameraInfo>>)
    ensures r.Some? <==> hasList
    ensures r.Some? ==> forall k :: 0 <= k < |r.value| ==> r.value[k].id != [] && r.value[k].name != []
    ensures r.Some? ==> r.value == CamerasAfter(body, TryExtractNextJsonObjectRange(body, 0))
  {
    if hasList then
      CameraListNamed(body, 0, []);
      CamerasUnfold(body);
      Some(Cameras(body))
    else None
  }

  /** The cameras of a body in terms of its first top-level object: none
      when there is no object, otherwise the camera of that object, if it is
      one, followed by the cameras after it. */
  function CamerasAfter(s: string, first: Option<(nat, nat)>): seq<CameraInfo>
    requires first.Some? ==> first.value.1 < |s|
  {
    match first
    case None => []
    case Some((a, b)) => Kept(TryParseCameraInfo(s, a, b)) + CameraListFrom(s, b + 1, [])
  }

  lemma CamerasUnfold(s: string)
    ensures Cameras(s) == CamerasAfter(s, TryExtractNextJsonObjectRange(s, 0))
  {
    match TryExtractNextJsonObjectRange(s, 0)
    case None =>
    case Some((a, b)) =>
      CameraListAccumulates(s, b + 1, Kept(TryParseCameraInfo(s, a, b)));
      assert [] + Kept(TryParseCameraInfo(s, a, b)) == Kept(TryParseCameraInfo(s, a, b));
  }

  /** What the list loop has collected stays in front of what it collects
      from `searchStart` on, whatever was collected before. */
  lemma {:induction false} CameraListAccumulates(s: string, searchStart: nat, found: seq<CameraInfo>)
    requires searchStart <= |s|
    ensures CameraListFrom(s, searchStart, found) == found + CameraListFrom(s, searchStart, [])
    decreases |s| - searchStart
  {
    match TryExtractNextJsonObjectRange(s, searchStart)
    case None =>
      assert found + [] == found;
    case Some((a, b)) =>
      var kept := Kept(TryParseCameraInfo(s, a, b));
      CameraListAccumulates(s, b + 1, found + kept);
      CameraListAccumulates(s, b + 1, kept);
      AccumulateStep(s, searchStart, found, a, b, kept);
  }

  /** The inductive step of `CameraListAccumulates` for an object at
      `a..b`, given the law after it. */
  lemma AccumulateStep(s: string, searchStart: nat, found: seq<CameraInfo>, a: nat, b: nat, kept: seq<CameraInfo>)
    requires searchStart <= |s| && TryExtractNextJsonObjectRange(s, searchStart) == Some((a, b))
    requires kept == Kept(TryParseCameraInfo(s, a, b))
    requires CameraListFrom(s, b + 1, found + kept) == found + kept + CameraListFrom(s, b + 1, [])
    requires CameraListFrom(s, b + 1, kept) == kept + CameraListFrom(s, b + 1, [])
    ensures CameraListFrom(s, searchStart, found) == found + CameraListFrom(s, searchStart, [])
  {
    CameraListStep(s, searchStart, found, a, b);
    CameraListStep(s, searchStart, [], a, b);
    assert [] + kept == kept;
    AppendAssoc(found, kept, CameraListFrom(s, b + 1, []));
  }

  /** One pass of the list loop. */
  lemma CameraListStep(s: string, searchStart: nat, found: seq<CameraInfo>, a: nat, b: nat)
    requires searchStart <= |s| && TryExtractNextJsonObjectRange(s, searchStart) == Some((a, b))
    ensures CameraListFrom(s, searchStart, found) == CameraListFrom(s, b + 1, found + Kept(TryParseCameraInfo(s, a, b)))
  {
  }

  lemma AppendAssoc(x: seq<CameraInfo>, y: seq<CameraInfo>, z: seq<CameraInfo>)
    ensures x + y + z == x + (y + z)
  {
  }

  // Round trip: the member loop reads back the members a serializer writes.

  /** One member `"key":"value"` as a serializer writes it. */
  function MemberText(key: string, value: string): string {
    Quote(key) + ":" + Quote(value)
  }

  lemma AtSplit3(s: string, i: nat, a: string, b: string, c: string)
    requires At(s, i, a + b + c)
    ensures At(s, i, a) && At(s, i + |a|, b) && At(s, i + |a| + |b|, c)
  {
    AtSplit(s, i, a + b, c);
    AtSplit(s, i, a, b);
  }

  /** Where the pieces of a written member sit. */
  lemma MemberPieces(s: string, p: nat, key: string, value: string)
    requires At(s, p, MemberText(key, value))
    ensures At(s, p, Quote(key)) && s[p] == '"'
    ensures s[p + |Quote(key)|] == ':'
    ensures At(s, p + |Quote(key)| + 1, Quote(value)) && s[p + |Quote(key)| + 1] == '"'
  {
    var qk := Quote(key);
    var qv := Quote(value);
    var c := p + |qk|;
    AtSplit3(s, p, qk, ":", qv);
    assert s[c + 0] == ":"[0];
    assert s[p + 0] == qk[0];
    assert s[c + 1 + 0] == qv[0];
  }

  /** The member loop at a quoted key, then `:` with white space allowed on
      either side, goes on to read the value at the first character after
      the colon that is not white space. */
  lemma ReadKey(s: string, p: nat, next: nat, c: nat, v: nat, end: nat, key: string, acc: CameraInfo)
    requires p < next <= c < v <= end < |s| && s[p] == '"'
    requires TryParseJsonString(s, p, end) == Some((next, key))
    requires SpacesBetween(s, next, c) && s[c] == ':'
    requires SpacesBetween(s, c + 1, v) && !IsSpace(s[v])
    ensures FieldsLoop(s, p, end, acc) == ValueAt(s, v, end, key, acc)
  {
    assert FieldsLoop(s, p, end, acc) == MemberAt(s, p, end, acc) by {
      assert SkipSeparators(s, p, end + 1) == p;
    }
    SkipSpacesTo(s, next, c, end + 1);
    SkipSpacesTo(s, c + 1, v, end + 1);
  }

  /** The early `return false`: a key not followed, after white space, by a
      `:` inside the range, or whose `:` is followed only by white space up
      to `end`, fails the whole object. */
  lemma KeyWithoutValue(s: string, p: nat, next: nat, c: nat, end: nat, key: string, acc: CameraInfo)
    requires p < next <= c <= end + 1 <= |s| && s[p] == '"'
    requires TryParseJsonString(s, p, end) == Some((next, key))
    requires SpacesBetween(s, next, c) && (c == end + 1 || !IsSpace(s[c]))
    requires c <= end && s[c] == ':' ==> SpacesBetween(s, c + 1, end + 1)
    ensures FieldsLoop(s, p, end, acc).None?
  {
    assert FieldsLoop(s, p, end, acc) == MemberAt(s, p, end, acc) by {
      assert SkipSeparators(s, p, end + 1) == p;
    }
    SkipSpacesTo(s, next, c, end + 1);
    if c <= end && s[c] == ':' {
      SkipSpacesTo(s, c + 1, end + 1, end + 1);
    }
  }

  /** A string value is stored under a kept key and skipped under any other,
      and the loop resumes after it. */
  lemma ReadStringValue(s: string, v: nat, after: nat, end: nat, key: string, value: string, acc: CameraInfo)
    requires v <= end < |s| && s[v] == '"'
    requires TryParseJsonString(s, v, end) == Some((after, value))
    ensures ValueAt(s, v, end, key, acc) == FieldsLoop(s, after, end, SetField(acc, key, value))
  {
    if !IsCameraKey(key) {
      assert SkipJsonValue(s, v, end) == Some(after);
    }
  }

  /** A value that is not a string, and a string under a key that is not
      kept, is skipped and leaves the camera as it was. */
  lemma SkipOtherValue(s: string, v: nat, after: nat, end: nat, key: string, acc: CameraInfo)
    requires v <= end < |s| && (s[v] != '"' || !IsCameraKey(key))
    requires SkipJsonValue(s, v, end) == Some(after)
    ensures ValueAt(s, v, end, key, acc) == FieldsLoop(s, after, end, acc)
  {
  }

  /** One member with a string value, written as a serializer writes it. */
  lemma MemberStep(s: string, p: nat, end: nat, key: string, value: string, acc: CameraInfo)
    requires end < |s| && p + |MemberText(key, value)| <= end + 1
    requires At(s, p, MemberText(key, value))
    ensures FieldsLoop(s, p, end, acc)
         == FieldsLoop(s, p + |MemberText(key, value)|, end, SetField(acc, key, value))
  {
    var c := p + |Quote(key)|;
    var after := c + 1 + |Quote(value)|;
    assert && TryParseJsonString(s, p, end) == Some((c, key))
           && s[c] == ':' && s[c + 1] == '"'
           && TryParseJsonString(s, c + 1, end) == Some((after, value)) by {
      MemberPieces(s, p, key, value);
      QuoteRoundTrip(s, p, end, key);
      QuoteRoundTrip(s, c + 1, end, value);
    }
    assert SpacesBetween(s, c, c) && SpacesBetween(s, c + 1, c + 1);
    ReadKey(s, p, c, c, c + 1, end, key, acc);
    ReadStringValue(s, c + 1, after, end, key, value, acc);
  }

  /** A comma between members is passed over. */
  lemma CommaStep(s: string, q: nat, end: nat, acc: CameraInfo)
    requires q <= end < |s| && s[q] == ','
    ensures FieldsLoop(s, q, end, acc) == FieldsLoop(s, q + 1, end, acc)
  {
    assert SkipSeparators(s, q, end + 1) == SkipSeparators(s, q + 1, end + 1);
  }

  /** The member loop stops at the closing brace. */
  lemma CloseStep(s: string, q: nat, end: nat, acc: CameraInfo)
    requires q <= end < |s| && s[q] == '}'
    ensures FieldsLoop(s, q, end, acc) == Some(acc)
  {
    assert SkipSeparators(s, q, end + 1) == q;
  }

  /** Where the pieces of an object with three members sit. */
  lemma ObjectPieces(s: string, a: nat, m1: string, m2: string, m3: string)
    requires At(s, a, "{" + m1 + "," + m2 + "," + m3 + "}")
    ensures s[a] == '{' && At(s, a + 1, m1) && s[a + 1 + |m1|] == ','
    ensures At(s, a + 2 + |m1|, m2) && s[a + 2 + |m1| + |m2|] == ','
    ensures At(s, a + 3 + |m1| + |m2|, m3) && s[a + 3 + |m1| + |m2| + |m3|] == '}'
  {
    var x1 := "{" + m1;
    var x2 := x1 + ",";
    var x3 := x2 + m2;
    var x4 := x3 + ",";
    var x5 := x4 + m3;
    AtSplit(s, a, x5, "}");
    AtSplit(s, a, x4, m3);
    AtSplit(s, a, x3, ",");
    AtSplit(s, a, x2, m2);
    AtSplit(s, a, x1, ",");
    AtSplit(s, a, "{", m1);
    assert s[a + 0] == "{"[0];
    assert s[a + |x1| + 0] == ","[0];
    assert s[a + |x3| + 0] == ","[0];
    assert s[a + |x5| + 0] == "}"[0];
  }

  /** The member loop over an object with three string members stores the
      three values in order. */
  lemma ObjectRead(s: string, a: nat, e: nat, k1: string, v1: string, k2: string, v2: string,
                   k3: string, v3: string, acc: CameraInfo)
    requires At(s, a, "{" + MemberText(k1, v1) + "," + MemberText(k2, v2) + "," + MemberText(k3, v3) + "}")
    requires e == a + 3 + |MemberText(k1, v1)| + |MemberText(k2, v2)| + |MemberText(k3, v3)|
    ensures e < |s|
    ensures FieldsLoop(s, a + 1, e, acc) == Some(SetField(SetField(SetField(acc, k1, v1), k2, v2), k3, v3))
  {
    var m1 := MemberText(k1, v1);
    var m2 := MemberText(k2, v2);
    var m3 := MemberText(k3, v3);
    var p2 := a + 2 + |m1|;
    var p3 := p2 + |m2| + 1;
    var acc1 := SetField(acc, k1, v1);
    var acc2 := SetField(acc1, k2, v2);
    var acc3 := SetField(acc2, k3, v3);
    assert && e < |s| && At(s, a + 1, m1) && s[p2 - 1] == ','
           && At(s, p2, m2) && s[p3 - 1] == ',' && At(s, p3, m3) && s[e] == '}' by {
      ObjectPieces(s, a, m1, m2, m3);
    }
    assert FieldsLoop(s, a + 1, e, acc) == FieldsLoop(s, p2 - 1, e, acc1) by {
      MemberStep(s, a + 1, e, k1, v1, acc);
    }
    assert FieldsLoop(s, p2 - 1, e, acc1) == FieldsLoop(s, p2, e, acc1) by {
      CommaStep(s, p2 - 1, e, acc1);
    }
    assert FieldsLoop(s, p2, e, acc1) == FieldsLoop(s, p3 - 1, e, acc2) by {
      MemberStep(s, p2, e, k2, v2, acc1);
    }
    assert FieldsLoop(s, p3 - 1, e, acc2) == FieldsLoop(s, p3, e, acc2) by {
      CommaStep(s, p3 - 1, e, acc2);
    }
    assert FieldsLoop(s, p3, e, acc2) == FieldsLoop(s, e, e, acc3) by {
      MemberStep(s, p3, e, k3, v3, acc2);
    }
    CloseStep(s, e, e, acc3);
  }

  /** A camera as the camera API writes it. */
  function CameraText(c: CameraInfo): string {
    "{" + MemberText("id", c.id) + "," + MemberText("name", c.name) + "," + MemberText("state", c.state) + "}"
  }

  lemma SetCamera(c: CameraInfo)
    ensures SetField(SetField(SetField(NoFields, "id", c.id), "name", c.name), "state", c.state) == c
  {
    assert "name" != "id" && "state" != "id" && "state" != "name";
  }

  /** Round trip for one camera written anywhere in a body: it parses back to
      itself, with the id standing in for an empty name, and is rejected
      exactly when its id is empty. */
  lemma CameraRoundTrip(s: string, a: nat, c: CameraInfo)
    requires At(s, a, CameraText(c))
    ensures TryParseCameraInfo(s, a, a + |CameraText(c)| - 1) == Finish(c)
  {
    var e := a + |CameraText(c)| - 1;
    assert s[a] == '{' && a < e < |s| by {
      assert s[a + 0] == CameraText(c)[0];
    }
    ObjectRead(s, a, e, "id", c.id, "name", c.name, "state", c.state, NoFields);
    SetCamera(c);
  }
}

=== FILE: joystick_app.dfy ===
/** The two pure decisions inside the application's UI code: validating and
    saving the settings dialog, and the `/noxinput` command-line switch. The
    dialog, the registry and the command line are parameters. */
module JoystickApp {
  import opened Wrappers
  import opened Text
  import opened StringUtils

  // Reading a dialog field.

  /** Size of the buffer a dialog field is read into, in UTF-16 code units. */
  const DialogBufferSize: nat := 512

  /** `GetDialogItemText`: the control copies at most one unit less than the
      buffer (the last one holds the NUL), and an empty read gives `""`. */
  function DialogText(control: string): (r: string)
    ensures |r| <= DialogBufferSize - 1
    ensures r <= control
    ensures |control| < DialogBufferSize ==> r == control
  {
    if |control| < DialogBufferSize then control else control[..DialogBufferSize - 1]
  }

  // Validating and saving the settings.

  /** The settings dialog as the user left it: the four edit boxes and the
      API-key check box. */
  datatype SettingsForm = SettingsForm(
    address: string, username: string, password: string, apiKey: string, useApiKey: bool)

  /** No blank at either end of a field. */
  predicate Trimmed(x: string) {
    x == [] || (!IsBlank(x[0]) && !IsBlank(x[|x| - 1]))
  }

  predicate FormTrimmed(t: SettingsForm) {
    Trimmed(t.address) && Trimmed(t.username) && Trimmed(t.password) && Trimmed(t.apiKey)
  }

  /** `x` is what is left of the field `control` once read and stripped of the
      blanks around it. */
  predicate ReadFrom(control: string, x: string) {
    Trimmed(x) && exists i :: 0 <= i <= |DialogText(control)| && TrimmedAt(DialogText(control), x, i)
  }

  /** The form as `SaveSettingsDialog` reads it: each field read from its
      control and trimmed. */
  function ReadForm(f: SettingsForm): (t: SettingsForm)
    ensures t.useApiKey == f.useApiKey
    ensures ReadFrom(f.address, t.address) && ReadFrom(f.username, t.username)
    ensures ReadFrom(f.password, t.password) && ReadFrom(f.apiKey, t.apiKey)
    ensures FormTrimmed(t)
  {
    SettingsForm(TrimWide(DialogText(f.address)), TrimWide(DialogText(f.username)),
                 TrimWide(DialogText(f.password)), TrimWide(DialogText(f.apiKey)), f.useApiKey)
  }

  /** Reading a field that was already read gives it back. */
  lemma ReadFieldAgain(x: string)
    ensures TrimWide(DialogText(TrimWide(DialogText(x)))) == TrimWide(DialogText(x))
  {
    TrimIdempotent(DialogText(x));
  }

  /** A form that was read once reads the same again: reading is a
      projection onto the trimmed forms, so the checks, which see the form as
      read, give the same outcome on a re-read form. */
  lemma ReadFormIdempotent(f: SettingsForm)
    ensures ReadForm(ReadForm(f)) == ReadForm(f)
    ensures Validate(ReadForm(ReadForm(f))) == Validate(ReadForm(f))
  {
    ReadFieldAgain(f.address);
    ReadFieldAgain(f.username);
    ReadFieldAgain(f.password);
    ReadFieldAgain(f.apiKey);
  }

  /** Why a save was refused. */
  datatype SaveError = AddressRequired | ApiKeyRequired | CredentialsRequired | WriteFailed

  /** The text of the error box shown for each refusal. */
  function ErrorMessage(e: SaveError): string {
    match e
    case AddressRequired => "Controller address is required."
    case ApiKeyRequired => "API key is required when enabled."
    case CredentialsRequired => "Username and password are required."
    case WriteFailed => "Failed to save settings."
  }

  /** The three checks on the trimmed form, in the order they are made:
      the address first, then the key in API-key mode, then the credentials
      otherwise. `None` when all pass. */
  function Validate(t: SettingsForm): (r: Option<SaveError>)
    ensures r.None? || r.value != WriteFailed
    ensures t.address == [] ==> r == Some(AddressRequired)
  {
    if t.address == [] then Some(AddressRequired)
    else if t.useApiKey && t.apiKey == [] then Some(ApiKeyRequired)
    else if !t.useApiKey && (t.username == [] || t.password == []) then Some(CredentialsRequired)
    else None
  }

  /** What a complete form has: an address, and a key in API-key mode or a
      user name and a password otherwise. */
  predicate Complete(t: SettingsForm) {
    && t.address != []
    && (t.useApiKey ==> t.apiKey != [])
    && (!t.useApiKey ==> t.username != [] && t.password != [])
  }

  lemma ValidateComplete(t: SettingsForm)
    ensures Validate(t).None? <==> Complete(t)
  {
  }

  /** In API-key mode the user name and password are not looked at; in
      credential mode the key is not. */
  lemma ValidateIgnoresOtherMode(t: SettingsForm, user: string, pass: string, key: string)
    ensures t.useApiKey ==> Validate(t.(username := user, password := pass)) == Validate(t)
    ensures !t.useApiKey ==> Validate(t.(apiKey := key)) == Validate(t)
  {
  }

  /** One registry write under the application's key. */
  datatype RegistryWrite =
    | WriteString(name: string, text: string)
    | WriteDword(name: string, number: nat)

  /** The five writes of a save, in order. */
  function SettingsWrites(t: SettingsForm): (w: seq<RegistryWrite>)
    ensures |w| == 5
  {
    [ WriteString("Controller Address", t.address),
      WriteString("Username", t.username),
      WriteString("Password", t.password),
      WriteString("API Key", t.apiKey),
      WriteDword("Use API Key", if t.useApiKey then 1 else 0) ]
  }

  /** The text the writes `w` leave under `name`: the last string written
      there, if any. */
  function StoredString(w: seq<RegistryWrite>, name: string): Option<string> {
    if w == [] then None
    else if w[|w| - 1].WriteString? && w[|w| - 1].name == name then Some(w[|w| - 1].text)
    else StoredString(w[..|w| - 1], name)
  }

  /** The number the writes `w` leave under `name`: the last one written
      there, if any. */
  function StoredDword(w: seq<RegistryWrite>, name: string): Option<nat> {
    if w == [] then None
    else if w[|w| - 1].WriteDword? && w[|w| - 1].name == name then Some(w[|w| - 1].number)
    else StoredDword(w[..|w| - 1], name)
  }

  /** The form read back from what the writes alone left: the
      four texts, and the check box ticked for any non-zero flag. `None` when
      a value is missing. */
  function LoadForm(w: seq<RegistryWrite>): Option<SettingsForm> {
    var address := StoredString(w, "Controller Address");
    var username := StoredString(w, "Username");
    var password := StoredString(w, "Password");
    var apiKey := StoredString(w, "API Key");
    var flag := StoredDword(w, "Use API Key");
    if address.Some? && username.Some? && password.Some? && apiKey.Some? && flag.Some? then
      Some(SettingsForm(address.value, username.value, password.value, apiKey.value, flag.value != 0))
    else None
  }

  /** The five writes store every field of the form under its own name, so
      loading them back gives the form that was saved. */
  lemma SettingsRoundTrip(t: SettingsForm)
    ensures LoadForm(SettingsWrites(t)) == Some(t)
  {
    var w := SettingsWrites(t);
    LastStringWrite(w, 0, "Controller Address");
    LastStringWrite(w, 1, "Username");
    LastStringWrite(w, 2, "Password");
    LastStringWrite(w, 3, "API Key");
  }

  /** A text written at `k` and not overwritten later is the one stored. */
  lemma {:induction false} LastStringWrite(w: seq<RegistryWrite>, k: nat, name: string)
    requires k < |w| && w[k].WriteString? && w[k].name == name
    requires forall j :: k < j < |w| ==> !(w[j].WriteString? && w[j].name == name)
    ensures StoredString(w, name) == Some(w[k].text)
    decreases |w|
  {
    if k < |w| - 1 {
      LastStringWrite(w[..|w| - 1], k, name);
    }
  }

  /** How many writes the `&&` chain performs when write `k` would report
      `succeeds[k]`: up to and including the first failure. */
  function WritesMade(succeeds: seq<bool>): (n: nat)
    ensures n <= |succeeds|
    ensures forall k :: 0 <= k < n - 1 ==> succeeds[k]
    ensures n < |succeeds| ==> 0 < n && !succeeds[n - 1]
  {
    if succeeds == [] then 0
    else if !succeeds[0] then 1
    else 1 + WritesMade(succeeds[1..])
  }

  /** The outcome of pressing OK: whether the dialog may close, the error box
      shown if any, the registry writes performed, and whether the network
      configuration change and a camera-list refresh were announced. */
  datatype SaveOutcome = SaveOutcome(
    saved: bool, error: Option<SaveError>, writes: seq<RegistryWrite>, notified: bool)

  /** The checks and writes of `SaveSettingsDialog` on the trimmed form `t`,
      the registry reporting `succeeds[k]` for the `k`-th write. */
  function SaveTrimmed(t: SettingsForm, succeeds: seq<bool>): (r: SaveOutcome)
    requires |succeeds| == 5
    ensures r.saved <==> r.error.None?
    ensures r.notified <==> r.saved
    ensures r.writes <= SettingsWrites(t)
  {
    match Validate(t)
    case Some(e) => SaveOutcome(false, Some(e), [], false)
    case None =>
      var n := WritesMade(succeeds);
      var ok := forall k :: 0 <= k < 5 ==> succeeds[k];
      SaveOutcome(ok, if ok then None else Some(WriteFailed), SettingsWrites(t)[..n], ok)
  }

  /** `SaveSettingsDialog`: read and trim the form, then check and write it.
      Only trimmed values reach the registry. */
  function SaveSettings(f: SettingsForm, succeeds: seq<bool>): (r: SaveOutcome)
    requires |succeeds| == 5
    ensures r.writes <= SettingsWrites(ReadForm(f))
    ensures r.notified ==> Complete(ReadForm(f))
  {
    var r := SaveTrimmed(ReadForm(f), succeeds);
    assert r.notified ==> Validate(ReadForm(f)).None?;
    ValidateComplete(ReadForm(f));
    r
  }

  /** The notifications are sent exactly when the form is complete and every
      one of the five writes succeeded. */
  lemma SaveNotifies(t: SettingsForm, succeeds: seq<bool>)
    requires |succeeds| == 5
    ensures SaveTrimmed(t, succeeds).notified <==>
      Complete(t) && succeeds[0] && succeeds[1] && succeeds[2] && succeeds[3] && succeeds[4]
  {
  }

  /** A refused form writes nothing. A complete one writes in order and stops
      at the first write that fails: every write made but the last
      succeeded, and fewer than five are made only after a failure. */
  lemma SaveWrites(t: SettingsForm, succeeds: seq<bool>)
    requires |succeeds| == 5
    ensures var w := SaveTrimmed(t, succeeds).writes;
      && (!Complete(t) ==> w == [])
      && (Complete(t) ==> 1 <= |w| && (|w| < 5 ==> !succeeds[|w| - 1]))
      && (Complete(t) ==> forall k :: 0 <= k < |w| - 1 ==> succeeds[k])
  {
  }

  /** A save that closes the dialog has written the whole form: loading the
      settings afterwards gives back exactly the trimmed form. */
  lemma SaveStoresForm(f: SettingsForm, succeeds: seq<bool>)
    requires |succeeds| == 5
    ensures SaveSettings(f, succeeds).saved ==>
      LoadForm(SaveSettings(f, succeeds).writes) == Some(ReadForm(f))
  {
    var t := ReadForm(f);
    if SaveSettings(f, succeeds).saved {
      assert WritesMade(succeeds) == 5;
      assert SettingsWrites(t)[..5] == SettingsWrites(t);
      SettingsRoundTrip(t);
    }
  }

  /** The error box shown is that of the first check that fails, and the
      write-failure box only after all checks have passed. */
  lemma SaveReportsFirstError(t: SettingsForm, succeeds: seq<bool>)
    requires |succeeds| == 5
    ensures var e := SaveTrimmed(t, succeeds).error;
      && (t.address == [] ==> e == Some(AddressRequired))
      && (t.address != [] && t.useApiKey && t.apiKey == [] ==> e == Some(ApiKeyRequired))
      && (t.address != [] && !t.useApiKey && (t.username == [] || t.password == []) ==>
            e == Some(CredentialsRequired))
      && (e == Some(WriteFailed) ==> Complete(t) && exists k :: 0 <= k < 5 && !succeeds[k])
  {
  }

  // The `/noxinput` switch.

  const SwitchName: string := "noxinput"

  /** The folding `_wcsnicmp` applies in the "C" locale: only the ASCII
      capitals change. */
  function Lower(c: char): (d: char)
    ensures 'A' <= c <= 'Z' ==> d as int == c as int + 32
    ensures !('A' <= c <= 'Z') ==> d == c
  {
    if 'A' <= c <= 'Z' then (c as int + 32) as char else c
  }

  /** Against a lower-case letter, the folded comparison accepts exactly that
      letter and its capital. */
  lemma LowerMatchesLetter(c: char, l: char)
    requires 'a' <= l <= 'z'
    ensures Lower(c) == l <==> c == l || c as int == l as int - 32
  {
  }

  /** The test on one argument, read as the NUL-terminated string the
      command-line parser hands back: a `/` or `-`, then the eight units of
      `noxinput` in any case (`_wcsnicmp` with a count of 8), then the
      terminator. */
  predicate SwitchArg(arg: string) {
    && (CharAt(arg, 0) == '/' || CharAt(arg, 0) == '-')
    && (forall k :: 0 <= k < |SwitchName| ==> Lower(CharAt(arg, 1 + k)) == SwitchName[k])
    && CharAt(arg, 1 + |SwitchName|) == '\0'
  }

  /** The loop over the arguments from `i` on; `None` entries are null
      pointers, which are passed over. */
  function FilterFrom(args: seq<Option<string>>, i: nat): (r: bool)
    decreases |args| - i
  {
    if i >= |args| then false
    else if args[i].Some? && SwitchArg(args[i].value) then true
    else FilterFrom(args, i + 1)
  }

  /** `ShouldFilterXInputDevices`: `argList` is the parsed command line, or
      `None` when it could not be parsed. Entry 0, the program, is skipped. */
  function ShouldFilterXInputDevices(argList: Option<seq<Option<string>>>): bool {
    argList.Some? && FilterFrom(argList.value, 1)
  }

  /** The loop finds the switch exactly when some argument after `i` is it. */
  lemma {:induction false} FilterFromExists(args: seq<Option<string>>, i: nat)
    ensures FilterFrom(args, i) <==>
      exists k :: i <= k < |args| && args[k].Some? && SwitchArg(args[k].value)
    decreases |args| - i
  {
    if i < |args| {
      FilterFromExists(args, i + 1);
      if FilterFrom(args, i + 1) {
        var k :| i + 1 <= k < |args| && args[k].Some? && SwitchArg(args[k].value);
        assert i <= k;
      }
    }
  }

  /** The switch is on exactly when the command line parsed and some argument
      other than the program itself is the switch. */
  lemma FilterSwitchOn(argList: Option<seq<Option<string>>>)
    ensures ShouldFilterXInputDevices(argList) <==>
      argList.Some? &&
      exists k :: 1 <= k < |argList.value| && argList.value[k].Some? && SwitchArg(argList.value[k].value)
  {
    if argList.Some? {
      FilterFromExists(argList.value, 1);
    }
  }

  /** The same test on the argument's characters: a switch character, the
      eight letters of `noxinput` each in either case, and then the end of
      the argument or an embedded NUL, which ends it for the C code. */
  lemma SwitchArgShape(arg: string)
    ensures SwitchArg(arg) <==>
      && |arg| >= 9
      && (arg[0] == '/' || arg[0] == '-')
      && (forall k :: 0 <= k < 8 ==>
            arg[1 + k] == SwitchName[k] || arg[1 + k] as int == SwitchName[k] as int - 32)
      && (|arg| == 9 || arg[9] == '\0')
  {
    forall k | 0 <= k < 8 {
      LowerMatchesLetter(CharAt(arg, 1 + k), SwitchName[k]);
    }
    if SwitchArg(arg) {
      assert Lower(CharAt(arg, 1 + 7)) == SwitchName[7] == 't';
    }
  }
}

=== FILE: json_scan.dfy ===
/** The string-aware bracket counters: `TryExtractJsonObjectRange`,
    `TryExtractNextJsonObjectRange` and `SkipJsonValue`. All three track
    whether the scan is inside a string literal (and just after a backslash
    there) and count one kind of bracket outside strings. */
module JsonScan {
  import opened Wrappers
  import opened Text
  import opened JsonString

  datatype ScanState = ScanState(inString: bool, escape: bool, depth: int)

  /** The state every scan starts in: outside any string, depth zero. */
  const Outside := ScanState(false, false, 0)

  /** A backslash escape is only pending inside a string literal. */
  predicate Consistent(st: ScanState) {
    st.escape ==> st.inString
  }

  /** The two bracket pairs the scanners count. */
  predicate Brackets(open: char, close: char) {
    (open == '{' && close == '}') || (open == '[' && close == ']')
  }

  /** One character inside a string literal: a backslash escapes the next
      character and an unescaped quote ends the literal. */
  function StringStep(st: ScanState, ch: char): (r: ScanState)
    ensures r.depth == st.depth
  {
    if st.escape then st.(escape := false)
    else if ch == '\\' then st.(escape := true)
    else if ch == '"' then st.(inString := false)
    else st
  }

  /** One character of the counter: strings are skipped, `open` counts up and
      `close` counts down. */
  function Step(st: ScanState, ch: char, open: char, close: char): ScanState {
    if st.inString then StringStep(st, ch)
    else if ch == '"' then st.(inString := true)
    else if ch == open then st.(depth := st.depth + 1)
    else if ch == close then st.(depth := st.depth - 1)
    else st
  }

  /** Reference definition: the state after counting `s[p..k]` from `Outside`. */
  function StateAt(s: string, p: nat, k: nat, open: char, close: char): ScanState
    requires p <= k <= |s|
    decreases k
  {
    if k == p then Outside else Step(StateAt(s, p, k - 1, open, close), s[k - 1], open, close)
  }

  /** `s[k]` is the bracket that closes the one opened at `p`: it is a `close`
      outside every string while exactly one bracket is open. */
  predicate ClosesAt(s: string, p: nat, k: nat, open: char, close: char)
    requires p <= k < |s|
  {
    s[k] == close && !StateAt(s, p, k, open, close).inString && StateAt(s, p, k, open, close).depth == 1
  }

  /** The counting loop, resumed at `i` in state `st`; it stops at the first
      `close` that brings the depth back to zero. */
  function ScanClose(s: string, i: nat, limit: nat, open: char, close: char, st: ScanState): (r: Option<nat>)
    requires i <= limit <= |s|
    requires Brackets(open, close)
    decreases limit - i
    ensures r.Some? ==> i <= r.value < limit && s[r.value] == close
  {
    if i == limit then None
    else if st.inString then ScanClose(s, i + 1, limit, open, close, StringStep(st, s[i]))
    else if s[i] == '"' then ScanClose(s, i + 1, limit, open, close, st.(inString := true))
    else if s[i] == open then ScanClose(s, i + 1, limit, open, close, st.(depth := st.depth + 1))
    else if s[i] == close then
      if st.depth - 1 == 0 then Some(i)
      else ScanClose(s, i + 1, limit, open, close, st.(depth := st.depth - 1))
    else ScanClose(s, i + 1, limit, open, close, st)
  }

  /** The loop finds exactly the first closing bracket in the sense of the
      reference fold. */
  lemma {:induction false} ScanCloseFindsFirst(s: string, p: nat, i: nat, limit: nat, open: char, close: char)
    requires p <= i <= limit <= |s|
    requires Brackets(open, close)
    requires forall j :: p <= j < i ==> !ClosesAt(s, p, j, open, close)
    ensures var r := ScanClose(s, i, limit, open, close, StateAt(s, p, i, open, close));
      && (r.Some? ==> ClosesAt(s, p, r.value, open, close)
                      && forall j :: p <= j < r.value ==> !ClosesAt(s, p, j, open, close))
      && (r.None? ==> forall j :: p <= j < limit ==> !ClosesAt(s, p, j, open, close))
    decreases limit - i
  {
    if i < limit {
      var st := StateAt(s, p, i, open, close);
      assert StateAt(s, p, i + 1, open, close) == Step(st, s[i], open, close);
      if !(!st.inString && s[i] == close && st.depth == 1) {
        assert !ClosesAt(s, p, i, open, close);
        ScanCloseFindsFirst(s, p, i + 1, limit, open, close);
      }
    }
  }

  /** Find the bracket matching the `open` at `p`, looking below `limit`. */
  function MatchClose(s: string, p: nat, limit: nat, open: char, close: char): (r: Option<nat>)
    requires p <= limit <= |s|
    requires Brackets(open, close)
    ensures r.Some? ==> p <= r.value < limit && ClosesAt(s, p, r.value, open, close)
    ensures r.Some? ==> forall j :: p <= j < r.value ==> !ClosesAt(s, p, j, open, close)
    ensures r.None? ==> forall j :: p <= j < limit ==> !ClosesAt(s, p, j, open, close)
  {
    ScanCloseFindsFirst(s, p, p, limit, open, close);
    ScanClose(s, p, limit, open, close, Outside)
  }

  /** Where the value of `key` starts: after the first occurrence of the key,
      the next `:` and any white space. `None` when the key or the colon is
      missing or only white space follows. */
  function LocateValue(s: string, key: string): (r: Option<nat>)
    ensures Find(s, key, 0).None? ==> r.None?
    ensures r.Some? ==> r.value < |s| && !IsSpace(s[r.value])
    ensures r.Some? ==> Find(s, key, 0).value + |key| < r.value
  {
    match Find(s, key, 0)
    case None => None
    case Some(k) =>
      match Find(s, ":", k + |key|)
      case None => None
      case Some(c) =>
        var p := SkipSpaces(s, c + 1, |s|);
        if p == |s| then None else Some(p)
  }

  /** `s[c]` is the first `:` at or after `from`. */
  predicate FirstColon(s: string, from: nat, c: nat) {
    from <= c < |s| && s[c] == ':' && forall j :: from <= j < c ==> s[j] != ':'
  }

  /** `p` is the first character after the colon at `c` that is not white
      space. */
  predicate ValueAfter(s: string, c: nat, p: nat) {
    c < p < |s| && SpacesBetween(s, c + 1, p) && !IsSpace(s[p])
  }

  /** Nothing can be read after `from`: the first colon there, if any, is
      followed only by white space. */
  predicate NoValueAfter(s: string, from: nat) {
    forall c :: from <= c < |s| && FirstColon(s, from, c) ==> SpacesBetween(s, c + 1, |s|)
  }

  /** The colon search as `Find` reports it. */
  lemma FindColon(s: string, from: nat)
    ensures var r := Find(s, ":", from);
      && (r.Some? ==> FirstColon(s, from, r.value))
      && (r.None? ==> forall j :: from <= j < |s| ==> s[j] != ':')
  {
    var r := Find(s, ":", from);
    if r.Some? {
      OccursAtChar(s, ':', r.value);
      forall j | from <= j < r.value ensures s[j] != ':' {
        OccursAtChar(s, ':', j);
      }
    } else {
      forall j | from <= j < |s| ensures s[j] != ':' {
        OccursAtChar(s, ':', j);
      }
    }
  }

  /** There is at most one first colon. */
  lemma FirstColonUnique(s: string, from: nat, c: nat, d: nat)
    requires FirstColon(s, from, c) && FirstColon(s, from, d)
    ensures c == d
  {
  }

  /** A successful lookup stops at the first character that is not white
      space after the first colon that follows the key. */
  lemma LocateValueFound(s: string, key: string)
    requires LocateValue(s, key).Some?
    ensures Find(s, key, 0).Some?
    ensures Find(s, ":", Find(s, key, 0).value + |key|).Some?
    ensures var c := Find(s, ":", Find(s, key, 0).value + |key|).value;
      FirstColon(s, Find(s, key, 0).value + |key|, c) && ValueAfter(s, c, LocateValue(s, key).value)
  {
    var from := Find(s, key, 0).value + |key|;
    FindColon(s, from);
    var c := Find(s, ":", from).value;
    SkipSpacesFirst(s, c + 1, |s|);
  }

  /** Conversely, that character is where the lookup stops. */
  lemma LocateValueFrom(s: string, key: string, c: nat, p: nat)
    requires Find(s, key, 0).Some?
    requires FirstColon(s, Find(s, key, 0).value + |key|, c) && ValueAfter(s, c, p)
    ensures LocateValue(s, key) == Some(p)
  {
    var from := Find(s, key, 0).value + |key|;
    FindColon(s, from);
    assert Find(s, ":", from).Some? by {
      assert s[c] == ':';
    }
    FirstColonUnique(s, from, c, Find(s, ":", from).value);
    SkipSpacesTo(s, c + 1, p, |s|);
  }

  /** The value of `key` starts at `p` exactly when `p` is the first
      character that is not white space after the first colon that follows
      the first occurrence of the key. */
  lemma LocateValueAt(s: string, key: string, p: nat)
    ensures LocateValue(s, key) == Some(p) <==>
      Find(s, key, 0).Some? &&
      exists c :: FirstColon(s, Find(s, key, 0).value + |key|, c) && ValueAfter(s, c, p)
  {
    if LocateValue(s, key) == Some(p) {
      LocateValueFound(s, key);
    }
    if Find(s, key, 0).Some? && exists c :: FirstColon(s, Find(s, key, 0).value + |key|, c) && ValueAfter(s, c, p) {
      var c :| FirstColon(s, Find(s, key, 0).value + |key|, c) && ValueAfter(s, c, p);
      LocateValueFrom(s, key, c, p);
    }
  }

  /** The lookup fails exactly when the key is missing or nothing but white
      space follows the first colon after it (or no colon follows it at
      all). */
  lemma LocateValueNone(s: string, key: string)
    ensures LocateValue(s, key).None? <==>
      Find(s, key, 0).None? || NoValueAfter(s, Find(s, key, 0).value + |key|)
  {
    if Find(s, key, 0).Some? {
      var from := Find(s, key, 0).value + |key|;
      FindColon(s, from);
      match Find(s, ":", from)
      case None =>
        assert NoValueAfter(s, from);
      case Some(c) =>
        SkipSpacesFirst(s, c + 1, |s|);
        var q := SkipSpaces(s, c + 1, |s|);
        if NoValueAfter(s, from) {
          assert SpacesBetween(s, c + 1, |s|);
        }
        if q == |s| {
          forall d | from <= d < |s| && FirstColon(s, from, d) ensures SpacesBetween(s, d + 1, |s|) {
            FirstColonUnique(s, from, c, d);
          }
        }
    }
  }

  /** The object value of the first occurrence of `key`: a `{` where the value
      starts, whose matching `}` exists. Returns the indices of the two braces. */
  function TryExtractJsonObjectRange(body: string, key: string): (r: Option<(nat, nat)>)
    ensures Find(body, key, 0).None? ==> r.None?
    ensures r.Some? ==> r.value.0 < r.value.1 < |body|
    ensures r.Some? ==> body[r.value.0] == '{' && body[r.value.1] == '}'
    ensures r.Some? ==> LocateValue(body, key) == Some(r.value.0)
    ensures r.Some? ==> Find(body, key, 0).value + |key| < r.value.0
    ensures r.Some? ==> ClosesAt(body, r.value.0, r.value.1, '{', '}')
    ensures r.Some? ==> forall j :: r.value.0 <= j < r.value.1 ==> !ClosesAt(body, r.value.0, j, '{', '}')
  {
    match LocateValue(body, key)
    case None => None
    case Some(p) =>
      if body[p] != '{' then None
      else match MatchClose(body, p, |body|, '{', '}')
        case None => None
        case Some(e) => Some((p, e))
  }

  /** Conversely, an object value at the key is returned with its first
      matching brace, stated through `ClosesAt` rather than the scan. */
  lemma ExtractAt(body: string, key: string, p: nat, e: nat)
    requires LocateValue(body, key) == Some(p) && body[p] == '{'
    requires p <= e < |body| && ClosesAt(body, p, e, '{', '}')
    requires forall j :: p <= j < e ==> !ClosesAt(body, p, j, '{', '}')
    ensures TryExtractJsonObjectRange(body, key) == Some((p, e))
  {
  }

  /** `s[a]` is a `{` outside every string, scanning from `from`. */
  predicate OpensAt(s: string, from: nat, a: nat)
    requires from <= a < |s|
  {
    s[a] == '{' && !StateAt(s, from, a, '{', '}').inString
  }

  /** The search phase of the next-object scan: track strings and stop at the
      first `{` outside them. */
  function FindOpen(s: string, i: nat, st: ScanState): (r: Option<nat>)
    requires i <= |s|
    decreases |s| - i
    ensures r.Some? ==> i <= r.value < |s| && s[r.value] == '{'
  {
    if i == |s| then None
    else if st.inString then FindOpen(s, i + 1, StringStep(st, s[i]))
    else if s[i] == '"' then FindOpen(s, i + 1, st.(inString := true))
    else if s[i] == '{' then Some(i)
    else FindOpen(s, i + 1, st)
  }

  /** The search phase finds exactly the first unquoted `{`. */
  lemma {:induction false} FindOpenFindsFirst(s: string, from: nat, i: nat, st: ScanState)
    requires from <= i <= |s|
    requires st.inString == StateAt(s, from, i, '{', '}').inString
    requires st.escape == StateAt(s, from, i, '{', '}').escape
    requires forall j :: from <= j < i ==> !OpensAt(s, from, j)
    ensures var r := FindOpen(s, i, st);
      && (r.Some? ==> OpensAt(s, from, r.value) && forall j :: from <= j < r.value ==> !OpensAt(s, from, j))
      && (r.None? ==> forall j :: from <= j < |s| ==> !OpensAt(s, from, j))
    decreases |s| - i
  {
    if i < |s| {
      var ref := StateAt(s, from, i, '{', '}');
      assert StateAt(s, from, i + 1, '{', '}') == Step(ref, s[i], '{', '}');
      if st.inString {
        FindOpenFindsFirst(s, from, i + 1, StringStep(st, s[i]));
      } else if s[i] == '"' {
        FindOpenFindsFirst(s, from, i + 1, st.(inString := true));
      } else if s[i] != '{' {
        FindOpenFindsFirst(s, from, i + 1, st);
      }
    }
  }

  /** Reference definition of the next object: the first unquoted `{` at or
      after `from`, paired with its matching `}`. */
  function NextObject(s: string, from: nat): Option<(nat, nat)>
    requires from <= |s|
  {
    match FindOpen(s, from, Outside)
    case None => None
    case Some(a) =>
      match MatchClose(s, a, |s|, '{', '}')
      case None => None
      case Some(b) => Some((a, b))
  }

  /** The next-object loop as written: one pass that records the position of
      each `{` met at depth zero, ignores a `}` at depth zero, and stops at
      the `}` that brings the depth back to zero. */
  function NextObjectLoop(s: string, i: nat, st: ScanState, objectStart: Option<nat>): Option<(nat, nat)>
    requires i <= |s|
    decreases |s| - i
  {
    if i == |s| then None
    else if st.inString then NextObjectLoop(s, i + 1, StringStep(st, s[i]), objectStart)
    else if s[i] == '"' then NextObjectLoop(s, i + 1, st.(inString := true), objectStart)
    else if s[i] == '{' then
      NextObjectLoop(s, i + 1, st.(depth := st.depth + 1), if st.depth == 0 then Some(i) else objectStart)
    else if s[i] == '}' then
      if st.depth == 0 then NextObjectLoop(s, i + 1, st, objectStart)
      else if st.depth - 1 == 0 && objectStart.Some? then Some((objectStart.value, i))
      else NextObjectLoop(s, i + 1, st.(depth := st.depth - 1), objectStart)
    else NextObjectLoop(s, i + 1, st, objectStart)
  }

  /** Once an object is open, the loop is the bracket counter. */
  lemma {:induction false} NextObjectLoopMatching(s: string, i: nat, st: ScanState, a: nat)
    requires i <= |s| && st.depth >= 1
    ensures NextObjectLoop(s, i, st, Some(a)) ==
      match ScanClose(s, i, |s|, '{', '}', st)
      case None => None
      case Some(b) => Some((a, b))
    decreases |s| - i
  {
    if i < |s| {
      if st.inString {
        NextObjectLoopMatching(s, i + 1, StringStep(st, s[i]), a);
      } else if s[i] == '"' {
        NextObjectLoopMatching(s, i + 1, st.(inString := true), a);
      } else if s[i] == '{' {
        NextObjectLoopMatching(s, i + 1, st.(depth := st.depth + 1), a);
      } else if s[i] == '}' {
        if st.depth != 1 {
          NextObjectLoopMatching(s, i + 1, st.(depth := st.depth - 1), a);
        }
      } else {
        NextObjectLoopMatching(s, i + 1, st, a);
      }
    }
  }

  /** Before an object opens, the loop is the search phase followed by the
      bracket counter started at the `{` it found. */
  lemma {:induction false} NextObjectLoopSearching(s: string, i: nat, st: ScanState)
    requires i <= |s| && st.depth == 0 && Consistent(st)
    ensures NextObjectLoop(s, i, st, None) ==
      match FindOpen(s, i, st)
      case None => None
      case Some(a) =>
        match ScanClose(s, a, |s|, '{', '}', Outside)
        case None => None
        case Some(b) => Some((a, b))
    decreases |s| - i
  {
    if i < |s| {
      if st.inString {
        NextObjectLoopSearching(s, i + 1, StringStep(st, s[i]));
      } else if s[i] == '"' {
        NextObjectLoopSearching(s, i + 1, st.(inString := true));
      } else if s[i] == '{' {
        NextObjectLoopMatching(s, i + 1, st.(depth := 1), i);
        assert ScanClose(s, i, |s|, '{', '}', Outside)
            == ScanClose(s, i + 1, |s|, '{', '}', ScanState(false, false, 1));
      } else {
        NextObjectLoopSearching(s, i + 1, st);
      }
    }
  }

  /** The next top-level object at or after `searchStart`: the first unquoted
      `{` and its matching `}`. A `}` met before any `{` is ignored. */
  function TryExtractNextJsonObjectRange(s: string, searchStart: nat): (r: Option<(nat, nat)>)
    requires searchStart <= |s|
    ensures r == NextObject(s, searchStart)
    ensures r.Some? ==> searchStart <= r.value.0 < r.value.1 < |s|
    ensures r.Some? ==> s[r.value.0] == '{' && s[r.value.1] == '}'
    ensures r.Some? ==> OpensAt(s, searchStart, r.value.0)
    ensures r.Some? ==> forall j :: searchStart <= j < r.value.0 ==> !OpensAt(s, searchStart, j)
    ensures r.Some? ==> ClosesAt(s, r.value.0, r.value.1, '{', '}')
    ensures r.Some? ==> forall j :: r.value.0 <= j < r.value.1 ==> !ClosesAt(s, r.value.0, j, '{', '}')
    ensures (forall j :: searchStart <= j < |s| ==> !OpensAt(s, searchStart, j)) ==> r.None?
  {
    NextObjectLoopSearching(s, searchStart, Outside);
    FindOpenFindsFirst(s, searchStart, searchStart, Outside);
    NextObjectLoop(s, searchStart, Outside, None)
  }

  /** Outside strings, characters other than a quote and the two brackets
      leave the counter unchanged. */
  lemma {:induction false} ScanPlainRun(s: string, i: nat, j: nat, limit: nat, open: char, close: char, st: ScanState)
    requires i <= j <= limit <= |s| && Brackets(open, close) && !st.inString
    requires forall k :: i <= k < j ==> s[k] != '"' && s[k] != open && s[k] != close
    ensures ScanClose(s, i, limit, open, close, st) == ScanClose(s, j, limit, open, close, st)
    decreases j - i
  {
    if i < j {
      ScanPlainRun(s, i + 1, j, limit, open, close, st);
    }
  }

  /** Inside a string literal, one written character is passed over without
      counting a bracket: a plain character, a backslash and the character
      it escapes, or a `\u` escape whose digits are neither quotes nor
      backslashes. */
  lemma ScanRendered(s: string, i: nat, limit: nat, open: char, close: char, st: ScanState, w: Written)
    requires i + |Render(w)| <= limit <= |s| && Brackets(open, close)
    requires st.inString && !st.escape && Decodable(w)
    requires At(s, i, Render(w))
    ensures ScanClose(s, i, limit, open, close, st) == ScanClose(s, i + |Render(w)|, limit, open, close, st)
  {
    var e := Render(w);
    match w
    case Plain(c) =>
      assert s[i + 0] == e[0];
      ScanPlainString(s, i, i + 1, limit, open, close, st);
    case Short(x) =>
      assert s[i + 0] == e[0];
      ScanEscapePair(s, i, limit, open, close, st);
    case Unicode(n) =>
      assert s[i + 0] == e[0];
      ScanEscapePair(s, i, limit, open, close, st);
      HexEscapePlain(n);
      assert forall k :: i + 2 <= k < i + 6 ==> s[k] != '"' && s[k] != '\\' by {
        forall k | i + 2 <= k < i + 6 ensures s[k] != '"' && s[k] != '\\' {
          assert s[i + (k - i)] == e[k - i];
        }
      }
      ScanPlainString(s, i + 2, i + 6, limit, open, close, st);
  }

  /** Inside a string literal, a backslash and the character after it change
      nothing. */
  lemma ScanEscapePair(s: string, i: nat, limit: nat, open: char, close: char, st: ScanState)
    requires i + 2 <= limit <= |s| && Brackets(open, close)
    requires st.inString && !st.escape && s[i] == '\\'
    ensures ScanClose(s, i, limit, open, close, st) == ScanClose(s, i + 2, limit, open, close, st)
  {
  }

  /** Inside a string literal, characters other than a quote and a backslash
      change nothing. */
  lemma {:induction false} ScanPlainString(s: string, i: nat, j: nat, limit: nat, open: char, close: char, st: ScanState)
    requires i <= j <= limit <= |s| && Brackets(open, close)
    requires st.inString && !st.escape
    requires forall k :: i <= k < j ==> s[k] != '"' && s[k] != '\\'
    ensures ScanClose(s, i, limit, open, close, st) == ScanClose(s, j, limit, open, close, st)
    decreases j - i
  {
    if i < j {
      ScanPlainString(s, i + 1, j, limit, open, close, st);
    }
  }

  /** Inside a string literal, the written form of one character is passed
      over. */
  lemma ScanWrittenChar(s: string, i: nat, limit: nat, open: char, close: char, st: ScanState, c: char)
    requires i + |EscapeChar(c)| <= limit <= |s| && Brackets(open, close)
    requires st.inString && !st.escape
    requires At(s, i, EscapeChar(c))
    ensures ScanClose(s, i, limit, open, close, st) == ScanClose(s, i + |EscapeChar(c)|, limit, open, close, st)
  {
    WritingRead(c);
    ScanRendered(s, i, limit, open, close, st, Writing(c));
  }

  /** Inside a string literal, the escaped text of any value and its closing
      quote are passed over without counting a bracket. */
  lemma {:induction false} ScanEscapedRun(s: string, i: nat, limit: nat, open: char, close: char, st: ScanState, v: string)
    requires i + |Escape(v)| + 1 <= limit <= |s| && Brackets(open, close)
    requires st.inString && !st.escape
    requires WrittenAt(s, i, v) && s[i + |Escape(v)|] == '"'
    ensures ScanClose(s, i, limit, open, close, st)
         == ScanClose(s, i + |Escape(v)| + 1, limit, open, close, st.(inString := false))
    decreases |v|
  {
    if v != [] {
      EscapeCons(v);
      ScanWrittenChar(s, i, limit, open, close, st, v[0]);
      ScanEscapedRun(s, i + |EscapeChar(v[0])|, limit, open, close, st, v[1..]);
    }
  }

  /** Braces inside a string literal are not counted, whatever the literal
      holds: scanning `Quote(v)` from outside a string leaves the state as it
      was. */
  lemma ScanQuoted(s: string, i: nat, limit: nat, open: char, close: char, st: ScanState, v: string)
    requires i + |Quote(v)| <= limit <= |s| && Brackets(open, close)
    requires !st.inString && !st.escape
    requires At(s, i, Quote(v))
    ensures ScanClose(s, i, limit, open, close, st) == ScanClose(s, i + |Quote(v)|, limit, open, close, st)
  {
    QuotedAt(s, i, Escape(v));
    AtWritten(s, i + 1, v);
    ScanEscapedRun(s, i + 1, limit, open, close, st.(inString := true), v);
  }

  /** A literal whose text needs no escaping is passed over the same way. */
  lemma ScanPlainQuoted(s: string, i: nat, limit: nat, open: char, close: char, st: ScanState, x: string)
    requires i + |x| + 2 <= limit <= |s| && Brackets(open, close)
    requires !st.inString && !st.escape
    requires Unescaped(x) && At(s, i, "\"" + x + "\"")
    ensures ScanClose(s, i, limit, open, close, st) == ScanClose(s, i + |x| + 2, limit, open, close, st)
  {
    QuotePlain(x);
    ScanQuoted(s, i, limit, open, close, st, x);
  }

  /** The end of a bare token (number, `true`, `null`, ...): the first `,`,
      `}` or `]` at or after `i`, or `end + 1`. */
  predicate IsDelimiter(c: char) {
    c == ',' || c == '}' || c == ']'
  }

  /** The bare-token loop: advance to the first delimiter below `limit`. */
  function SkipToken(s: string, i: nat, limit: nat): (j: nat)
    requires i <= limit <= |s|
    decreases limit - i
    ensures i <= j <= limit
    ensures forall k :: i <= k < j ==> !IsDelimiter(s[k])
    ensures j == limit || IsDelimiter(s[j])
  {
    if i < limit && !IsDelimiter(s[i]) then SkipToken(s, i + 1, limit) else i
  }

  /** Skip the value starting at `start`: a string literal, a bracketed
      container, or a bare token. Returns the index just past it. */
  function SkipJsonValue(s: string, start: nat, end: nat): (r: Option<nat>)
    requires end < |s|
    ensures start > end ==> r.None?
    ensures r.Some? ==> start <= r.value <= end + 1
    ensures r.Some? && s[start] == '"' ==> start + 2 <= r.value && s[r.value - 1] == '"'
    ensures r.Some? && s[start] == '{' ==> start < r.value && ClosesAt(s, start, r.value - 1, '{', '}')
    ensures r.Some? && s[start] == '[' ==> start < r.value && ClosesAt(s, start, r.value - 1, '[', ']')
    ensures start <= end && s[start] !in "\"{[" ==> r.Some?
    ensures start <= end && s[start] !in "\"{[" ==>
      (forall k :: start <= k < r.value ==> !IsDelimiter(s[k])) && (r.value == end + 1 || IsDelimiter(s[r.value]))
  {
    if start > end then None
    else if s[start] == '"' then
      match TryParseJsonString(s, start, end)
      case None => None
      case Some((next, _)) => Some(next)
    else if s[start] == '{' || s[start] == '[' then
      var close := if s[start] == '{' then '}' else ']';
      match MatchClose(s, start, end + 1, s[start], close)
      case None => None
      case Some(k) => Some(k + 1)
    else
      Some(SkipToken(s, start, end + 1))
  }

  /** The container case ends one past the FIRST bracket that closes the one
      at `start` (no later one) and fails when none closes it up to `end`;
      the string case ends one past the literal's first unescaped quote and
      fails when there is none. */
  lemma SkipJsonValueSpec(s: string, start: nat, end: nat)
    requires end < |s| && start <= end
    ensures var r := SkipJsonValue(s, start, end);
      && (s[start] == '{' && r.Some? ==> forall j :: start <= j < r.value - 1 ==> !ClosesAt(s, start, j, '{', '}'))
      && (s[start] == '{' && (forall j :: start <= j <= end ==> !ClosesAt(s, start, j, '{', '}')) ==> r.None?)
      && (s[start] == '[' && r.Some? ==> forall j :: start <= j < r.value - 1 ==> !ClosesAt(s, start, j, '[', ']'))
      && (s[start] == '[' && (forall j :: start <= j <= end ==> !ClosesAt(s, start, j, '[', ']')) ==> r.None?)
      && (s[start] == '"' && r.Some? ==>
            && ClosesLiteral(s, start, r.value - 1)
            && forall k :: start < k < r.value - 1 ==> !ClosesLiteral(s, start, k))
      && (s[start] == '"' && (forall k :: start < k <= end ==> !ClosesLiteral(s, start, k)) ==> r.None?)
  {
    if s[start] == '"' {
      TryParseJsonStringFirstQuote(s, start, end);
    }
  }
}

=== FILE: json_string.dfy ===
/** `TryParseJsonString`: decode one JSON string literal that starts at
    `body[start]` and must close at or before `body[end]`. */
module JsonString {
  import opened Wrappers
  import opened Text

  /** The hexadecimal digits in lower and in upper case, indexed by value. */
  const HexLower: string := "0123456789abcdef"
  const HexUpper: string := "0123456789ABCDEF"

  /** Value of one hexadecimal digit accepted after `\u`. */
  function HexDigit(c: char): (r: Option<nat>)
    ensures r.Some? <==> ('0' <= c <= '9' || 'A' <= c <= 'F' || 'a' <= c <= 'f')
    ensures r.Some? ==> r.value < 16
  {
    if '0' <= c <= '9' then Some(c as int - '0' as int)
    else if 'A' <= c <= 'F' then Some(c as int - 'A' as int + 10)
    else if 'a' <= c <= 'f' then Some(c as int - 'a' as int + 10)
    else None
  }

  /** The digit of value `d` reads as `d`, in either case. */
  lemma HexDigitOf(d: nat)
    requires d < 16
    ensures HexDigit(HexLower[d]) == Some(d) && HexDigit(HexUpper[d]) == Some(d)
  {
    if d < 10 {
      assert HexLower[d] as int == '0' as int + d;
    }
  }

  /** `HexDigit` reads the digit table: a character is accepted exactly when
      it is the digit of some value in one of the two cases, and then its
      value is that digit's. */
  lemma HexDigitTable(c: char)
    ensures HexDigit(c).Some? <==> exists d :: 0 <= d < 16 && (c == HexLower[d] || c == HexUpper[d])
    ensures HexDigit(c).Some? ==> c == HexLower[HexDigit(c).value] || c == HexUpper[HexDigit(c).value]
  {
    if HexDigit(c).Some? {
      var d := HexDigit(c).value;
      HexDigitOf(d);
      assert c == HexLower[d] || c == HexUpper[d];
    }
  }

  /** The `codePoint <<= 4; codePoint += digit` loop over `n` characters. */
  function HexLoop(s: string, i: nat, n: nat, acc: nat): Option<nat>
    requires i + n <= |s|
    decreases n
  {
    if n == 0 then Some(acc)
    else match HexDigit(s[i])
      case None => None
      case Some(d) => HexLoop(s, i + 1, n - 1, acc * 16 + d)
  }

  /** How many digits follow `\u`. */
  const EscapeDigits: nat := 4

  /** The four digits after `\u`, read most significant first. */
  function CodePoint(s: string, i: nat): Option<nat>
    requires i + EscapeDigits <= |s|
  {
    HexLoop(s, i, EscapeDigits, 0)
  }

  /** The value the four-digit loop computes is the positional hexadecimal
      value, and it fails exactly when some digit is not hexadecimal. */
  lemma CodePointValue(s: string, i: nat)
    requires i + 4 <= |s|
    ensures CodePoint(s, i).Some? <==>
      HexDigit(s[i]).Some? && HexDigit(s[i + 1]).Some? && HexDigit(s[i + 2]).Some? && HexDigit(s[i + 3]).Some?
    ensures CodePoint(s, i).Some? ==>
      CodePoint(s, i).value ==
        4096 * HexDigit(s[i]).value + 256 * HexDigit(s[i + 1]).value
        + 16 * HexDigit(s[i + 2]).value + HexDigit(s[i + 3]).value
    ensures CodePoint(s, i).Some? ==> CodePoint(s, i).value < 0x10000
  {
  }

  /** The character an escape `\c` (other than `\u`) decodes to: the eight
      JSON escapes give their control or punctuation character, and any other
      character stands for itself. */
  function SimpleEscape(c: char): char {
    match c
    case '"' => '"'
    case '\\' => '\\'
    case '/' => '/'
    case 'b' => '\U{0008}'
    case 'f' => '\U{000C}'
    case 'n' => '\n'
    case 'r' => '\r'
    case 't' => '\t'
    case _ => c
  }

  /** What a `\uXXXX` escape appends: the code unit itself up to 0x7F, `?` above. */
  function UnicodeEscape(cp: nat): (c: char)
    ensures cp <= 0x7F ==> c as int == cp
    ensures cp > 0x7F ==> c == '?'
  {
    if cp <= 0x7F then cp as char else '?'
  }

  /** The decoding loop: `i` is the next index to read, `escape` whether the
      previous character was an unconsumed backslash, `acc` the decoded text.
      On success returns one past the closing quote and the decoded value. */
  function DecodeFrom(s: string, i: nat, end: nat, escape: bool, acc: string): (r: Option<(nat, string)>)
    requires end < |s|
    decreases end + 1 - i
    ensures r.Some? ==> i < r.value.0 <= end + 1 && s[r.value.0 - 1] == '"'
    ensures r.Some? ==> |r.value.1| + 1 <= |acc| + r.value.0 - i
  {
    if i > end then None
    else if escape then
      if s[i] == 'u' then
        if i + 4 > end then None
        else match CodePoint(s, i + 1)
          case None => None
          case Some(cp) => DecodeFrom(s, i + 5, end, false, acc + [UnicodeEscape(cp)])
      else DecodeFrom(s, i + 1, end, false, acc + [SimpleEscape(s[i])])
    else if s[i] == '\\' then DecodeFrom(s, i + 1, end, true, acc)
    else if s[i] == '"' then Some((i + 1, acc))
    else DecodeFrom(s, i + 1, end, false, acc + [s[i]])
  }

  /** Parse the string literal at `start`, reading no further than `end`.
      Succeeds with (one past the closing quote, decoded value). */
  function TryParseJsonString(s: string, start: nat, end: nat): (r: Option<(nat, string)>)
    requires end < |s|
    ensures start > end ==> r.None?
    ensures start <= end && s[start] != '"' ==> r.None?
    ensures r.Some? ==> s[start] == '"' && start + 2 <= r.value.0 <= end + 1
    ensures r.Some? ==> s[r.value.0 - 1] == '"'
    ensures r.Some? ==> |r.value.1| <= r.value.0 - start - 2
  {
    if start > end || s[start] != '"' then None
    else DecodeFrom(s, start + 1, end, false, [])
  }

  // Where a literal ends.

  /** Whether `s[k]` is escaped when a literal's text is read from `from`: a
      backslash that is not itself escaped escapes the character after it. */
  function EscapedAt(s: string, from: nat, k: nat): bool
    requires from <= k <= |s|
    decreases k - from
  {
    k > from && !EscapedAt(s, from, k - 1) && s[k - 1] == '\\'
  }

  /** `s[k]` is an unescaped quote of the literal whose text starts at `from`. */
  predicate QuoteEndsAt(s: string, from: nat, k: nat)
    requires from <= k < |s|
  {
    s[k] == '"' && !EscapedAt(s, from, k)
  }

  /** The decoding loop stops at the first unescaped quote. */
  lemma {:induction false} DecodeFindsFirstQuote(s: string, from: nat, i: nat, end: nat, escape: bool, acc: string)
    requires end < |s| && from <= i <= end + 1
    requires escape == EscapedAt(s, from, i)
    requires forall k :: from <= k < i ==> !QuoteEndsAt(s, from, k)
    ensures var r := DecodeFrom(s, i, end, escape, acc);
      r.Some? ==> && from < r.value.0
                  && QuoteEndsAt(s, from, r.value.0 - 1)
                  && forall k :: from <= k < r.value.0 - 1 ==> !QuoteEndsAt(s, from, k)
    decreases end + 1 - i
  {
    if i <= end {
      if escape {
        assert !QuoteEndsAt(s, from, i);
        assert !EscapedAt(s, from, i + 1);
        if s[i] == 'u' {
          if i + 4 <= end && CodePoint(s, i + 1).Some? {
            var cp := CodePoint(s, i + 1).value;
            CodePointValue(s, i + 1);
            HexPlain(s, from, i + 1);
            DecodeFindsFirstQuote(s, from, i + 5, end, false, acc + [UnicodeEscape(cp)]);
          }
        } else {
          DecodeFindsFirstQuote(s, from, i + 1, end, false, acc + [SimpleEscape(s[i])]);
        }
      } else if s[i] == '\\' {
        assert EscapedAt(s, from, i + 1);
        DecodeFindsFirstQuote(s, from, i + 1, end, true, acc);
      } else if s[i] != '"' {
        assert !EscapedAt(s, from, i + 1);
        DecodeFindsFirstQuote(s, from, i + 1, end, false, acc + [s[i]]);
      }
    }
  }

  /** The four digits of a `\u` escape are neither quotes nor backslashes, so
      none of them ends the literal or escapes the next character. */
  lemma HexPlain(s: string, from: nat, i: nat)
    requires from <= i && i + 4 <= |s| && !EscapedAt(s, from, i)
    requires HexDigit(s[i]).Some? && HexDigit(s[i + 1]).Some? && HexDigit(s[i + 2]).Some? && HexDigit(s[i + 3]).Some?
    ensures forall k :: i <= k < i + 4 ==> !QuoteEndsAt(s, from, k)
    ensures !EscapedAt(s, from, i + 4)
  {
    assert !EscapedAt(s, from, i + 1);
    assert !EscapedAt(s, from, i + 2);
    assert !EscapedAt(s, from, i + 3);
  }

  /** `s[k]` is an unescaped quote of the literal that opens at `s[start]`. */
  predicate ClosesLiteral(s: string, start: nat, k: nat)
    requires start < k < |s|
  {
    QuoteEndsAt(s, start + 1, k)
  }

  /** A literal ends one past its first unescaped quote: on success that quote
      is the character before the returned index and no earlier one is
      unescaped, and without an unescaped quote up to `end` the parse fails. */
  lemma TryParseJsonStringFirstQuote(s: string, start: nat, end: nat)
    requires end < |s|
    ensures var r := TryParseJsonString(s, start, end);
      && (r.Some? ==> && start + 1 < r.value.0
                      && ClosesLiteral(s, start, r.value.0 - 1)
                      && forall k :: start < k < r.value.0 - 1 ==> !ClosesLiteral(s, start, k))
      && ((forall k :: start < k <= end ==> !ClosesLiteral(s, start, k)) ==> r.None?)
  {
    if start <= end && s[start] == '"' {
      DecodeFindsFirstQuote(s, start + 1, start + 1, end, false, []);
      var r := TryParseJsonString(s, start, end);
      if r.Some? {
        assert ClosesLiteral(s, start, r.value.0 - 1);
      }
    }
  }

  // The escapes.

  /** The last `width` hexadecimal digits of `n`, most significant first,
      in lower case. */
  function HexDigits(n: nat, width: nat): (r: string)
    ensures |r| == width
    decreases width
  {
    if width == 0 then [] else HexDigits(n / 16, width - 1) + [HexLower[n % 16]]
  }

  /** The `\u` escape of a code unit below 0x10000. */
  function HexEscape(n: nat): (r: string)
    ensures |r| == 6 && r[0] == '\\' && r[1] == 'u'
  {
    "\\u" + HexDigits(n, EscapeDigits)
  }

  /** The four digits of a `\u` escape, one by one. */
  lemma HexEscapeDigits(n: nat)
    ensures var e := HexEscape(n);
      && e[2] == HexLower[n / 16 / 16 / 16 % 16] && e[3] == HexLower[n / 16 / 16 % 16]
      && e[4] == HexLower[n / 16 % 16] && e[5] == HexLower[n % 16]
  {
    var e := HexEscape(n);
    assert e[2..] == HexDigits(n, 4);
    assert HexDigits(n, 4) == HexDigits(n / 16, 3) + [HexLower[n % 16]];
    assert HexDigits(n / 16, 3) == HexDigits(n / 16 / 16, 2) + [HexLower[n / 16 % 16]];
    assert HexDigits(n / 16 / 16, 2) == HexDigits(n / 16 / 16 / 16, 1) + [HexLower[n / 16 / 16 % 16]];
    assert HexDigits(n / 16 / 16 / 16, 1) == [HexLower[n / 16 / 16 / 16 % 16]];
  }

  /** The digits of a `\u` escape are neither quotes nor backslashes. */
  lemma HexEscapePlain(n: nat)
    ensures forall k :: 2 <= k < 6 ==> HexEscape(n)[k] != '"' && HexEscape(n)[k] != '\\'
  {
    HexEscapeDigits(n);
    HexDigitOf(n / 16 / 16 / 16 % 16);
    HexDigitOf(n / 16 / 16 % 16);
    HexDigitOf(n / 16 % 16);
    HexDigitOf(n % 16);
  }

  /** A `\u` escape appends the code unit it names when that is at most 0x7F,
      and `?` for anything above. */
  lemma DecodeHexEscape(s: string, i: nat, end: nat, n: nat, acc: string)
    requires end < |s| && n < 0x10000 && i + 5 <= end
    requires At(s, i, HexEscape(n))
    ensures DecodeFrom(s, i, end, false, acc)
         == DecodeFrom(s, i + 6, end, false, acc + [if n <= 0x7F then n as char else '?'])
  {
    var e := HexEscape(n);
    assert s[i + 0] == e[0] == '\\' && s[i + 1] == e[1] == 'u';
    var d3, d2, d1, d0 := n / 16 / 16 / 16 % 16, n / 16 / 16 % 16, n / 16 % 16, n % 16;
    HexEscapeDigits(n);
    assert s[i + 2] == HexLower[d3] && s[i + 3] == HexLower[d2] by {
      assert s[i + 2] == e[2] && s[i + 3] == e[3];
    }
    assert s[i + 4] == HexLower[d1] && s[i + 5] == HexLower[d0] by {
      assert s[i + 4] == e[4] && s[i + 5] == e[5];
    }
    HexDigitOf(d3);
    HexDigitOf(d2);
    HexDigitOf(d1);
    HexDigitOf(d0);
    CodePointValue(s, i + 2);
    assert CodePoint(s, i + 2) == Some(n);
  }

  /** An escape other than `\u` and the seven a serializer writes keeps its
      character: `\/` decodes to `/`, and `\q` to `q`. */
  lemma DecodeOtherEscape(s: string, i: nat, end: nat, acc: string)
    requires end < |s| && i + 1 <= end && s[i] == '\\'
    requires s[i + 1] !in "\"\\bfnrtu"
    ensures DecodeFrom(s, i, end, false, acc) == DecodeFrom(s, i + 2, end, false, acc + [s[i + 1]])
  {
  }

  /** A `\u` escape fails when fewer than four characters follow it up to
      `end`, or when one of the four is not a hexadecimal digit. */
  lemma DecodeBadUnicode(s: string, i: nat, end: nat, acc: string)
    requires end < |s| && i + 1 <= end && s[i] == '\\' && s[i + 1] == 'u'
    requires i + 5 > end || exists j :: i + 2 <= j < i + 6 && HexDigit(s[j]).None?
    ensures DecodeFrom(s, i, end, false, acc).None?
  {
    if i + 5 <= end {
      CodePointValue(s, i + 2);
    }
  }

  // Writing a literal, and reading it back.

  /** The three ways a serializer writes one character inside a JSON string
      literal. */
  datatype Written = Plain(c: char) | Short(x: char) | Unicode(n: nat)

  /** The choice: quote, backslash and the five named control characters as
      a two-character escape, the other control characters as `\u00XX`, and
      everything else as itself. */
  function Writing(c: char): Written {
    if c == '"' || c == '\\' then Short(c)
    else if c == '\U{0008}' then Short('b')
    else if c == '\U{000C}' then Short('f')
    else if c == '\n' then Short('n')
    else if c == '\r' then Short('r')
    else if c == '\t' then Short('t')
    else if c < ' ' then Unicode(c as int)
    else Plain(c)
  }

  function Render(w: Written): string {
    match w
    case Plain(c) => [c]
    case Short(x) => ['\\', x]
    case Unicode(n) => HexEscape(n)
  }

  function EscapeChar(c: char): string {
    Render(Writing(c))
  }

  function Escape(v: string): string {
    if v == [] then [] else EscapeChar(v[0]) + Escape(v[1..])
  }

  /** The JSON string literal for `v`. */
  function Quote(v: string): string {
    ['"'] + Escape(v) + ['"']
  }

  /** Text without quotes, backslashes or control characters needs no
      escaping. */
  predicate Unescaped(x: string) {
    forall k :: 0 <= k < |x| ==> x[k] != '"' && x[k] != '\\' && x[k] >= ' '
  }

  lemma {:induction false} EscapePlain(x: string)
    requires Unescaped(x)
    ensures Escape(x) == x
    decreases |x|
  {
    if x != [] {
      assert EscapeChar(x[0]) == [x[0]];
      EscapePlain(x[1..]);
      assert x == [x[0]] + x[1..];
    }
  }

  lemma QuotePlain(x: string)
    requires Unescaped(x)
    ensures Quote(x) == "\"" + x + "\""
  {
    EscapePlain(x);
  }

  /** A character other than a backslash or a quote is copied. */
  lemma DecodePlainChar(s: string, i: nat, end: nat, acc: string)
    requires end < |s| && i <= end && s[i] != '\\' && s[i] != '"'
    ensures DecodeFrom(s, i, end, false, acc) == DecodeFrom(s, i + 1, end, false, acc + [s[i]])
  {
  }

  /** A backslash and any character but `u` append that character's escape. */
  lemma DecodeTwoCharEscape(s: string, i: nat, end: nat, x: char, acc: string)
    requires end < |s| && i + 1 <= end && s[i] == '\\' && s[i + 1] == x && x != 'u'
    ensures DecodeFrom(s, i, end, false, acc) == DecodeFrom(s, i + 2, end, false, acc + [SimpleEscape(x)])
  {
  }

  /** A written form the decoder accepts: a plain character that is neither
      a backslash nor a quote, a two-character escape other than `\u`, or a
      `\u` escape of a code unit. */
  predicate Decodable(w: Written) {
    match w
    case Plain(c) => c != '\\' && c != '"'
    case Short(x) => x != 'u'
    case Unicode(n) => n < 0x10000
  }

  /** The character the decoder appends for a written form. */
  function Read(w: Written): char {
    match w
    case Plain(c) => c
    case Short(x) => SimpleEscape(x)
    case Unicode(n) => UnicodeEscape(n)
  }

  /** Every character is written in a form the decoder accepts and reads
      back as that character. */
  lemma WritingRead(c: char)
    ensures Decodable(Writing(c)) && Read(Writing(c)) == c
  {
  }

  /** Decoding a written form appends the character it stands for. */
  lemma DecodeRendered(s: string, i: nat, end: nat, w: Written, c: char, acc: string)
    requires end < |s| && Decodable(w) && Read(w) == c
    requires i + |Render(w)| <= end
    requires At(s, i, Render(w))
    ensures DecodeFrom(s, i, end, false, acc)
         == DecodeFrom(s, i + |Render(w)|, end, false, acc + [c])
  {
    match w
    case Short(x) =>
      DecodeShortAt(s, i, end, x, acc);
    case Unicode(n) =>
      DecodeHexEscape(s, i, end, n, acc);
    case Plain(p) =>
      DecodePlainAt(s, i, end, p, acc);
  }

  lemma DecodeShortAt(s: string, i: nat, end: nat, x: char, acc: string)
    requires end < |s| && i + 1 <= end && x != 'u' && At(s, i, ['\\', x])
    ensures DecodeFrom(s, i, end, false, acc) == DecodeFrom(s, i + 2, end, false, acc + [SimpleEscape(x)])
  {
    assert s[i + 0] == ['\\', x][0] && s[i + 1] == ['\\', x][1];
    DecodeTwoCharEscape(s, i, end, x, acc);
  }

  lemma DecodePlainAt(s: string, i: nat, end: nat, p: char, acc: string)
    requires end < |s| && i <= end && p != '\\' && p != '"' && At(s, i, [p])
    ensures DecodeFrom(s, i, end, false, acc) == DecodeFrom(s, i + 1, end, false, acc + [p])
  {
    assert s[i + 0] == [p][0];
    DecodePlainChar(s, i, end, acc);
  }

  lemma EscapeCons(v: string)
    requires v != []
    ensures Escape(v) == EscapeChar(v[0]) + Escape(v[1..])
  {
  }

  lemma AppendCons(acc: string, v: string)
    requires v != []
    ensures acc + [v[0]] + v[1..] == acc + v
  {
    assert v == [v[0]] + v[1..];
  }

  /** The escaped text of `v` appears at `i`, read one written character at
      a time. */
  predicate WrittenAt(s: string, i: nat, v: string)
    decreases |v|
  {
    v == [] || (At(s, i, EscapeChar(v[0])) && WrittenAt(s, i + |EscapeChar(v[0])|, v[1..]))
  }

  /** The first written character, then the rest. */
  lemma EscapedSplit(s: string, i: nat, v: string)
    requires v != []
    requires At(s, i, Escape(v))
    ensures At(s, i, EscapeChar(v[0])) && At(s, i + |EscapeChar(v[0])|, Escape(v[1..]))
  {
    EscapeCons(v);
    AtSplit(s, i, EscapeChar(v[0]), Escape(v[1..]));
  }

  lemma {:induction false} AtWritten(s: string, i: nat, v: string)
    requires At(s, i, Escape(v))
    ensures WrittenAt(s, i, v)
    decreases |v|
  {
    if v != [] {
      EscapedSplit(s, i, v);
      AtWritten(s, i + |EscapeChar(v[0])|, v[1..]);
    }
  }

  /** Decoding the escaped text of `v` followed by a closing quote yields `v`. */
  lemma {:induction false} DecodeEscaped(s: string, i: nat, end: nat, v: string, acc: string)
    requires end < |s|
    requires i + |Escape(v)| <= end
    requires WrittenAt(s, i, v) && s[i + |Escape(v)|] == '"'
    ensures DecodeFrom(s, i, end, false, acc) == Some((i + |Escape(v)| + 1, acc + v))
    decreases |v|
  {
    if v == [] {
      assert acc + v == acc;
    } else {
      var n := |EscapeChar(v[0])|;
      EscapeCons(v);
      DecodeEscaped(s, i + n, end, v[1..], acc + [v[0]]);
      WritingRead(v[0]);
      DecodeRendered(s, i, end, Writing(v[0]), v[0], acc);
      AppendCons(acc, v);
    }
  }

  /** Text between two quotes: the opening quote, the text, then the closing
      quote. */
  lemma QuotedAt(s: string, i: nat, w: string)
    requires At(s, i, ['"'] + w + ['"'])
    ensures s[i] == '"' && At(s, i + 1, w) && s[i + 1 + |w|] == '"'
  {
    assert s[i + 0] == (['"'] + w + ['"'])[0];
    assert s[i + 1 + |w|] == (['"'] + w + ['"'])[1 + |w|];
    forall k | 0 <= k < |w| ensures s[i + 1 + k] == w[k] {
      assert s[i + (1 + k)] == (['"'] + w + ['"'])[1 + k];
    }
  }

  /** Round trip: the literal `Quote(v)` placed anywhere in a body parses back
      to `v`, and parsing resumes right after it. */
  lemma QuoteRoundTrip(s: string, start: nat, end: nat, v: string)
    requires end < |s|
    requires start + |Quote(v)| <= end + 1
    requires At(s, start, Quote(v))
    ensures TryParseJsonString(s, start, end) == Some((start + |Quote(v)|, v))
  {
    QuotedAt(s, start, Escape(v));
    AtWritten(s, start + 1, v);
    DecodeEscaped(s, start + 1, end, v, []);
    assert [] + v == v;
  }
}

=== FILE: return_home.dfy ===
/** `TryParseReturnHomeDisabled`: read `returnHomeAfterInactivityMs` from a
    camera's JSON, preferring the copy inside the `"ptz"` object. `null`
    (bare, or quoted) and any value <= 0 mean the return-home feature is
    disabled; a positive number means it is enabled. */
module ReturnHome {
  import opened Wrappers
  import opened Text
  import opened JsonString
  import opened JsonScan

  const LLongMax: int := 0x7FFF_FFFF_FFFF_FFFF
  const LLongMin: int := -0x8000_0000_0000_0000

  /** `strtoll` clamps an out-of-range value to the nearest bound. */
  function Saturate(v: int): (r: int)
    ensures LLongMin <= r <= LLongMax
    ensures LLongMin <= v <= LLongMax ==> r == v
    ensures (r <= 0) == (v <= 0)
  {
    if v > LLongMax then LLongMax else if v < LLongMin then LLongMin else v
  }

  predicate AllDigits(ds: string) {
    forall k :: 0 <= k < |ds| ==> IsDigit(ds[k])
  }

  /** Decimal value of a run of digits, most significant first. */
  function DecimalValue(ds: string): nat
    requires AllDigits(ds)
    decreases |ds|
  {
    if ds == [] then 0 else DecimalValue(ds[..|ds| - 1]) * 10 + DigitValue(ds[|ds| - 1])
  }

  /** The value `strtoll` accumulates over the digits `s[d..e]`: ten times
      the value so far plus the next digit. */
  function DigitsValue(s: string, d: nat, e: nat): nat
    requires d <= e <= |s|
    requires forall k :: d <= k < e ==> IsDigit(s[k])
    decreases e - d
  {
    if e == d then 0 else DigitsValue(s, d, e - 1) * 10 + DigitValue(s[e - 1])
  }

  /** Accumulating over digits that spell `digits` gives its decimal value. */
  lemma {:induction false} DigitsValueAt(s: string, d: nat, digits: string)
    requires At(s, d, digits) && AllDigits(digits)
    ensures forall k :: d <= k < d + |digits| ==> IsDigit(s[k])
    ensures DigitsValue(s, d, d + |digits|) == DecimalValue(digits)
    decreases |digits|
  {
    forall k | d <= k < d + |digits| ensures IsDigit(s[k]) {
      assert s[d + (k - d)] == digits[k - d];
    }
    if digits != [] {
      var init := digits[..|digits| - 1];
      assert At(s, d, init) by {
        forall j | 0 <= j < |init| ensures s[d + j] == init[j] {
          assert init[j] == digits[j];
        }
      }
      DigitsValueAt(s, d, init);
      assert s[d + (|digits| - 1)] == digits[|digits| - 1];
    }
  }

  /** Where `strtoll` expects the first digit: past the leading white space
      and one optional sign. */
  function DigitStart(s: string, at: nat): (d: nat)
    requires at <= |s|
    ensures at <= d <= |s|
  {
    var q := SkipSpaces(s, at, |s|);
    if q < |s| && (s[q] == '+' || s[q] == '-') then q + 1 else q
  }

  /** `strtoll(p, &endPtr, 10)` with `p` pointing at `s[at]` and the C string
      ending at `|s|`: skip white space, take an optional sign, then as many
      digits as follow. Returns (index `endPtr` points at, value); with no
      digit, `endPtr` is `p` itself and the value 0. */
  function StrToLL(s: string, at: nat): (r: (nat, int))
    requires at <= |s|
    ensures r.0 == at || at < r.0 <= |s|
    ensures r.0 == at ==> r.1 == 0
    ensures r.0 > at ==> IsDigit(s[r.0 - 1]) && (r.0 == |s| || !IsDigit(s[r.0]))
    ensures var d := DigitStart(s, at);
      && (r.0 == at <==> d == |s| || !IsDigit(s[d]))
      && (r.0 > at ==> r.0 == SkipDigits(s, d, |s|))
  {
    var q := SkipSpaces(s, at, |s|);
    var neg := q < |s| && s[q] == '-';
    var d := DigitStart(s, at);
    var e := SkipDigits(s, d, |s|);
    if e == d then (at, 0)
    else
      var m: int := DigitsValue(s, d, e);
      (e, Saturate(if neg then -m else m))
  }

  /** Decimal text of a natural number, without leading zeros. */
  function NatText(m: nat): (t: string)
    ensures t != [] && AllDigits(t)
  {
    if m < 10 then [('0' as int + m) as char]
    else NatText(m / 10) + [('0' as int + m % 10) as char]
  }

  /** Decimal text of an integer: a `-` sign for negatives. */
  function IntText(n: int): string {
    if n < 0 then "-" + NatText(-n) else NatText(n)
  }

  lemma {:induction false} DecimalValueOfNatText(m: nat)
    ensures DecimalValue(NatText(m)) == m
  {
    var t := NatText(m);
    if m >= 10 {
      DecimalValueOfNatText(m / 10);
      assert t[..|t| - 1] == NatText(m / 10);
    }
  }

  /** A run of digits ended by a non-digit is exactly what the digit loop skips. */
  lemma DigitRun(s: string, d: nat, digits: string)
    requires At(s, d, digits) && AllDigits(digits)
    requires d + |digits| == |s| || !IsDigit(s[d + |digits|])
    ensures SkipDigits(s, d, |s|) == d + |digits|
  {
    forall k | d <= k < d + |digits| ensures IsDigit(s[k]) {
      assert s[d + (k - d)] == digits[k - d];
    }
  }

  /** `strtoll` once the sign and the end of the digit run are known. */
  lemma StrToLLAt(s: string, at: nat, neg: bool, d: nat, e: nat)
    requires at < |s| && !IsSpace(s[at])
    requires neg <==> s[at] == '-'
    requires d == if s[at] == '+' || s[at] == '-' then at + 1 else at
    requires d < e <= |s| && SkipDigits(s, d, |s|) == e
    ensures forall k :: d <= k < e ==> IsDigit(s[k])
    ensures var m: int := DigitsValue(s, d, e);
      StrToLL(s, at) == (e, Saturate(if neg then -m else m))
  {
    assert SkipSpaces(s, at, |s|) == at;
  }

  /** `strtoll` on an optional `-` followed by a maximal digit run. */
  lemma StrToLLSigned(s: string, at: nat, neg: bool, digits: string)
    requires at < |s| && (if neg then s[at] == '-' else IsDigit(s[at]))
    requires var d := if neg then at + 1 else at;
      && At(s, d, digits) && AllDigits(digits) && digits != []
      && (d + |digits| == |s| || !IsDigit(s[d + |digits|]))
    ensures var d := if neg then at + 1 else at;
      var m: int := DecimalValue(digits);
      StrToLL(s, at) == (d + |digits|, Saturate(if neg then -m else m))
  {
    var d := if neg then at + 1 else at;
    var e := d + |digits|;
    assert SkipDigits(s, d, |s|) == e by {
      DigitRun(s, d, digits);
    }
    assert DigitsValue(s, d, e) == DecimalValue(digits) by {
      DigitsValueAt(s, d, digits);
    }
    StrToLLAt(s, at, neg, d, e);
  }

  /** Round trip: `strtoll` reads back the decimal text of any integer that is
      followed by a non-digit (or by the end of the string), saturating at the
      64-bit bounds. */
  lemma StrToLLReadsIntText(s: string, at: nat, n: int)
    requires At(s, at, IntText(n))
    requires at + |IntText(n)| == |s| || !IsDigit(s[at + |IntText(n)|])
    ensures StrToLL(s, at) == (at + |IntText(n)|, Saturate(n))
  {
    var t := IntText(n);
    var m: nat := if n < 0 then -n else n;
    var digits := NatText(m);
    assert s[at + 0] == t[0];
    DecimalValueOfNatText(m);
    if n < 0 {
      assert t == ['-'] + digits;
      AtSplit(s, at, ['-'], digits);
      StrToLLSigned(s, at, true, digits);
    } else {
      assert t == digits;
      StrToLLSigned(s, at, false, digits);
    }
  }

  /** The field's name and its quoted form, the key searched for. */
  const KeyName: string := "returnHomeAfterInactivityMs"
  const ReturnHomeKey: string := "\"" + KeyName + "\""
  const PtzKey: string := "\"ptz\""

  /** Read the value that starts at `view[pos]`, where `view` is the window
      `body[start..end]`: `null`/`NULL` as a prefix, a quoted string that is
      exactly `null`/`NULL` or wholly a number, or a bare number. */
  function ReadValue(body: string, start: nat, end: nat, pos: nat): (r: Option<bool>)
    requires start <= end < |body| && start + pos <= end
  {
    var view := body[start..end + 1];
    if OccursAt(view, "null", pos) || OccursAt(view, "NULL", pos) then Some(true)
    else if view[pos] == '"' then
      match Find(view, "\"", pos + 1)
      case None => None
      case Some(q) =>
        var value := view[pos + 1..q];
        if value == "null" || value == "NULL" then Some(true)
        else
          var (e, n) := StrToLL(value, 0);
          if e == 0 || (e < |value| && value[e] != '\0') then None
          else Some(n <= 0)
    else
      var (e, n) := StrToLL(body, start + pos);
      if e == start + pos then None
      else Some(n <= 0)
  }

  /** The field lookup restricted to the window `body[start..end]`: find the
      key, the next `:`, skip white space, and read the value there. A bare
      number is read by `strtoll` straight from `body`; that matters only for
      a window not ending in a non-digit, and neither caller passes one. */
  function FieldFromRange(body: string, start: nat, end: nat, key: string): (r: Option<bool>)
    ensures start >= |body| || end <= start || end >= |body| ==> r.None?
    ensures start < end < |body| && Find(body[start..end + 1], key, 0).None? ==> r.None?
  {
    if start >= |body| || end <= start || end >= |body| then None
    else match LocateValue(body[start..end + 1], key)
      case None => None
      case Some(pos) => ReadValue(body, start, end, pos)
  }

  /** The lookup of `"returnHomeAfterInactivityMs"`. */
  function TryParseReturnHomeDisabledFromRange(body: string, start: nat, end: nat): (r: Option<bool>)
    ensures start >= |body| || end <= start || end >= |body| ==> r.None?
    ensures start < end < |body| && Find(body[start..end + 1], ReturnHomeKey, 0).None? ==> r.None?
  {
    FieldFromRange(body, start, end, ReturnHomeKey)
  }

  /** The attempt restricted to the `"ptz"` object. */
  function PtzAttempt(body: string): Option<bool> {
    match TryExtractJsonObjectRange(body, PtzKey)
    case None => None
    case Some((start, end)) => TryParseReturnHomeDisabledFromRange(body, start, end)
  }

  /** A body without the key gives neither attempt anything to read. */
  lemma AbsentKeyFailsInRange(body: string, start: nat, end: nat)
    requires start <= end < |body|
    requires Find(body, ReturnHomeKey, 0).None?
    ensures TryParseReturnHomeDisabledFromRange(body, start, end).None?
  {
    FindNoneInSlice(body, ReturnHomeKey, start, end + 1, 0);
  }

  lemma AbsentKeyFails(body: string)
    requires body != []
    ensures Find(body, ReturnHomeKey, 0).None? ==>
      PtzAttempt(body).None? && TryParseReturnHomeDisabledFromRange(body, 0, |body| - 1).None?
  {
    if Find(body, ReturnHomeKey, 0).None? {
      AbsentKeyFailsInRange(body, 0, |body| - 1);
      var range := TryExtractJsonObjectRange(body, PtzKey);
      if range.Some? {
        AbsentKeyFailsInRange(body, range.value.0, range.value.1);
      }
    }
  }

  /** `Some(disabled)` when the field can be read, `None` when it cannot; the
      caller must not assume a default. */
  function TryParseReturnHomeDisabled(body: string): (r: Option<bool>)
    ensures body == [] ==> r.None?
    ensures Find(body, ReturnHomeKey, 0).None? ==> r.None?
    ensures PtzAttempt(body).Some? ==> r == PtzAttempt(body)
    ensures body != [] && PtzAttempt(body).None? ==> r == TryParseReturnHomeDisabledFromRange(body, 0, |body| - 1)
  {
    if body == [] then None
    else
      AbsentKeyFails(body);
      var fromPtz := PtzAttempt(body);
      if fromPtz.Some? then fromPtz
      else TryParseReturnHomeDisabledFromRange(body, 0, |body| - 1)
  }

  /** The shapes the field's value takes in the camera API's JSON. */
  datatype FieldValue = JsonNull | QuotedNull | Number(n: int) | QuotedNumber(n: int)

  function Render(v: FieldValue): string {
    match v
    case JsonNull => "null"
    case QuotedNull => "\"null\""
    case Number(n) => IntText(n)
    case QuotedNumber(n) => "\"" + IntText(n) + "\""
  }

  /** What a value means for the return-home feature: `null` and values <= 0
      disable it, positive values enable it. */
  function Disables(v: FieldValue): bool {
    match v
    case JsonNull => true
    case QuotedNull => true
    case Number(n) => n <= 0
    case QuotedNumber(n) => n <= 0
  }

  lemma IntTextChars(n: int)
    ensures |IntText(n)| > 0
    ensures forall k :: 0 <= k < |IntText(n)| ==> IntText(n)[k] == '-' || IsDigit(IntText(n)[k])
  {
    if n < 0 {
      var d := NatText(-n);
      forall k | 0 <= k < |IntText(n)| ensures IntText(n)[k] == '-' || IsDigit(IntText(n)[k]) {
        if k > 0 { assert IntText(n)[k] == d[k - 1]; }
      }
    }
  }

  /** Common hypotheses of the read-back lemmas: `text` sits at `view[pos]`,
      followed inside the window by a non-digit. */
  predicate Placed(body: string, start: nat, end: nat, pos: nat, text: string) {
    && start <= end < |body|
    && At(body, start + pos, text)
    && start + pos + |text| <= end
    && !IsDigit(body[start + pos + |text|])
  }

  /** `null` or `NULL` inside the window disables the feature whatever
      follows it: the test is on the prefix only. */
  lemma ReadJsonNull(body: string, start: nat, end: nat, pos: nat, word: string)
    requires start <= end < |body| && start + pos + 4 <= end + 1
    requires word == "null" || word == "NULL"
    requires At(body, start + pos, word)
    ensures ReadValue(body, start, end, pos) == Some(true)
  {
    AtSlice(body, start, end + 1, pos, word);
    AtIsOccurrence(body[start..end + 1], pos, word);
  }

  /** A quoted run without quotes inside: the closing quote is the next one,
      and the text between is the run. */
  lemma ClosingQuote(view: string, pos: nat, x: string)
    requires At(view, pos, "\"" + x + "\"")
    requires forall j :: 0 <= j < |x| ==> x[j] != '"'
    ensures Find(view, "\"", pos + 1) == Some(pos + 1 + |x|)
    ensures view[pos + 1..pos + 1 + |x|] == x
  {
    var r := "\"" + x + "\"";
    var q := pos + 1 + |x|;
    assert view[pos + (1 + |x|)] == r[1 + |x|];
    AtIsOccurrence(view, q, "\"");
    forall j | pos + 1 <= j < q ensures !OccursAt(view, "\"", j) {
      assert view[pos + (j - pos)] == r[j - pos] == x[j - pos - 1];
      assert view[j..j + 1][0] == view[j];
    }
    FindFirst(view, "\"", pos + 1, q);
    AtInner(view, pos, r, 1, x);
    AtIsOccurrence(view, pos + 1, x);
  }

  /** A value that opens with a quote is not a `null` prefix. */
  lemma QuoteIsNotNull(view: string, pos: nat)
    requires pos < |view| && view[pos] == '"'
    ensures !OccursAt(view, "null", pos) && !OccursAt(view, "NULL", pos)
  {
    if pos + 4 <= |view| {
      assert view[pos..pos + 4][0] == view[pos];
    }
  }

  /** A quoted `"null"` or `"NULL"` disables the feature. */
  lemma ReadQuotedNull(body: string, start: nat, end: nat, pos: nat, word: string)
    requires word == "null" || word == "NULL"
    requires Placed(body, start, end, pos, "\"" + word + "\"")
    ensures ReadValue(body, start, end, pos) == Some(true)
  {
    var view := body[start..end + 1];
    var r := "\"" + word + "\"";
    AtSlice(body, start, end + 1, pos, r);
    assert view[pos + 0] == r[0] == '"';
    QuoteIsNotNull(view, pos);
    ClosingQuote(view, pos, word);
  }

  /** The bare branch: anything but a quote or a `null` prefix goes to
      `strtoll`, read from `body` itself. */
  lemma ReadBareValue(body: string, start: nat, end: nat, pos: nat, e: nat, n: int)
    requires start <= end < |body| && start + pos <= end
    requires body[start..end + 1][pos] != '"'
    requires !OccursAt(body[start..end + 1], "null", pos) && !OccursAt(body[start..end + 1], "NULL", pos)
    requires StrToLL(body, start + pos) == (e, n)
    ensures ReadValue(body, start, end, pos) == if e == start + pos then None else Some(n <= 0)
  {
  }

  /** A value starting with a sign or a digit is not a `null` prefix. */
  lemma NumberIsNotNull(view: string, pos: nat)
    requires pos < |view| && (view[pos] == '-' || IsDigit(view[pos]))
    ensures !OccursAt(view, "null", pos) && !OccursAt(view, "NULL", pos)
  {
    if pos + 4 <= |view| {
      assert view[pos..pos + 4][0] == view[pos];
    }
  }

  /** A bare value that `strtoll` reads in full. */
  lemma ReadBareNumber(body: string, start: nat, end: nat, pos: nat, t: string, n: int)
    requires Placed(body, start, end, pos, t)
    requires t != [] && (t[0] == '-' || IsDigit(t[0]))
    requires StrToLL(body, start + pos) == (start + pos + |t|, Saturate(n))
    ensures ReadValue(body, start, end, pos) == Some(n <= 0)
  {
    assert body[start + pos + 0] == t[0];
    assert body[start..end + 1][pos] == body[start + pos];
    NumberIsNotNull(body[start..end + 1], pos);
    ReadBareValue(body, start, end, pos, start + pos + |t|, Saturate(n));
  }

  lemma ReadNumber(body: string, start: nat, end: nat, pos: nat, n: int)
    requires Placed(body, start, end, pos, IntText(n))
    ensures ReadValue(body, start, end, pos) == Some(n <= 0)
  {
    var t := IntText(n);
    assert t != [] && (t[0] == '-' || IsDigit(t[0])) by {
      IntTextChars(n);
    }
    assert StrToLL(body, start + pos) == (start + pos + |t|, Saturate(n)) by {
      StrToLLReadsIntText(body, start + pos, n);
    }
    ReadBareNumber(body, start, end, pos, t, n);
  }

  /** The quoted branch once the closing quote is known. */
  lemma ReadQuotedValue(body: string, start: nat, end: nat, pos: nat, value: string)
    requires start <= end < |body| && start + pos <= end
    requires body[start..end + 1][pos] == '"'
    requires Find(body[start..end + 1], "\"", pos + 1) == Some(pos + 1 + |value|)
    requires body[start..end + 1][pos + 1..pos + 1 + |value|] == value
    ensures ReadValue(body, start, end, pos) ==
      if value == "null" || value == "NULL" then Some(true)
      else
        var (e, n) := StrToLL(value, 0);
        if e == 0 || (e < |value| && value[e] != '\0') then None
        else Some(n <= 0)
  {
    assert !OccursAt(body[start..end + 1], "null", pos) && !OccursAt(body[start..end + 1], "NULL", pos) by {
      QuoteIsNotNull(body[start..end + 1], pos);
    }
  }

  lemma ReadQuotedNumber(body: string, start: nat, end: nat, pos: nat, n: int)
    requires Placed(body, start, end, pos, "\"" + IntText(n) + "\"")
    ensures ReadValue(body, start, end, pos) == Some(n <= 0)
  {
    var view := body[start..end + 1];
    var t := IntText(n);
    var r := "\"" + t + "\"";
    IntTextChars(n);
    AtSlice(body, start, end + 1, pos, r);
    assert view[pos + 0] == r[0] == '"';
    ClosingQuote(view, pos, t);
    assert t != "null" && t != "NULL" by {
      assert t[0] == '-' || IsDigit(t[0]);
    }
    assert At(t, 0, t);
    StrToLLReadsIntText(t, 0, n);
    ReadQuotedValue(body, start, end, pos, t);
  }

  /** A bare value is read only when `strtoll` finds a digit after the
      optional white space and sign: `true`, `-x` or a lone `+` give nothing. */
  lemma ReadBareNeedsDigit(body: string, start: nat, end: nat, pos: nat, view: string)
    requires start <= end < |body| && start + pos <= end && view == body[start..end + 1]
    requires view[pos] != '"' && !OccursAt(view, "null", pos) && !OccursAt(view, "NULL", pos)
    ensures var d := DigitStart(body, start + pos);
      ReadValue(body, start, end, pos).None? <==> d == |body| || !IsDigit(body[d])
  {
  }

  /** A quoted value without its closing quote inside the window gives
      nothing. */
  lemma ReadQuotedUnclosed(body: string, start: nat, end: nat, pos: nat, view: string)
    requires start <= end < |body| && start + pos <= end && view == body[start..end + 1]
    requires view[pos] == '"' && Find(view, "\"", pos + 1).None?
    ensures ReadValue(body, start, end, pos).None?
  {
  }

  /** A quoted value other than `null`/`NULL` is read only when `strtoll`
      finds a digit and its digit run ends the quoted text, or is followed by
      a NUL: `"abc"`, `"12ab"` and `"nullx"` give nothing. */
  lemma ReadQuotedNeedsWholeNumber(body: string, start: nat, end: nat, pos: nat, view: string, q: nat)
    requires start <= end < |body| && start + pos <= end && view == body[start..end + 1]
    requires view[pos] == '"' && Find(view, "\"", pos + 1) == Some(q)
    requires view[pos + 1..q] != "null" && view[pos + 1..q] != "NULL"
    ensures var value := view[pos + 1..q];
      var d := DigitStart(value, 0);
      var e := SkipDigits(value, d, |value|);
      ReadValue(body, start, end, pos).None? <==> e == d || (e < |value| && value[e] != '\0')
  {
  }

  /** Reading a rendered value back gives its meaning, provided a non-digit
      follows it inside the window. */
  lemma ReadValueOf(body: string, start: nat, end: nat, pos: nat, v: FieldValue)
    requires Placed(body, start, end, pos, Render(v))
    ensures ReadValue(body, start, end, pos) == Some(Disables(v))
  {
    match v
    case JsonNull => ReadJsonNull(body, start, end, pos, "null");
    case QuotedNull =>
      assert Render(v) == "\"" + "null" + "\"";
      ReadQuotedNull(body, start, end, pos, "null");
    case Number(n) => ReadNumber(body, start, end, pos, n);
    case QuotedNumber(n) => ReadQuotedNumber(body, start, end, pos, n);
  }

  lemma RenderStartsValue(v: FieldValue)
    ensures |Render(v)| > 0 && !IsSpace(Render(v)[0])
  {
    match v
    case Number(n) => IntTextChars(n);
    case QuotedNumber(n) =>
    case JsonNull =>
    case QuotedNull =>
  }

  /** The window lookup once the value is located. */
  lemma RangeAt(body: string, start: nat, end: nat, key: string, pos: nat)
    requires start < end < |body|
    requires LocateValue(body[start..end + 1], key) == Some(pos)
    ensures start + pos <= end
    ensures FieldFromRange(body, start, end, key) == ReadValue(body, start, end, pos)
  {
  }

  /** The window lookup in terms of the text of the window `view`: the value
      read is the one at the first non-blank character after the first colon
      that follows the first occurrence of the key. */
  lemma FieldReadsAt(body: string, start: nat, end: nat, key: string, view: string, c: nat, p: nat)
    requires start < end < |body| && view == body[start..end + 1]
    requires Find(view, key, 0).Some?
    requires FirstColon(view, Find(view, key, 0).value + |key|, c) && ValueAfter(view, c, p)
    ensures start + p <= end
    ensures FieldFromRange(body, start, end, key) == ReadValue(body, start, end, p)
  {
    LocateValueFrom(view, key, c, p);
  }

  /** A key with no colon after it, or only white space after its colon,
      gives nothing to read. */
  lemma NoValueFailsInRange(body: string, start: nat, end: nat, key: string, view: string)
    requires start < end < |body| && view == body[start..end + 1]
    requires Find(view, key, 0).Some?
    requires NoValueAfter(view, Find(view, key, 0).value + |key|)
    ensures FieldFromRange(body, start, end, key).None?
  {
    LocateValueNone(view, key);
  }

  /** The same for the whole parser: when nothing can be read after the
      body's first key, the `"ptz"` window has nothing to read either, and
      the call fails. */
  lemma NoValueFails(body: string)
    requires |body| >= 2
    requires Find(body, ReturnHomeKey, 0).Some?
    requires NoValueAfter(body, Find(body, ReturnHomeKey, 0).value + |ReturnHomeKey|)
    ensures TryParseReturnHomeDisabled(body).None?
  {
    NoValueFailsInPtz(body);
    NoValueFailsInBody(body);
  }

  lemma NoValueFailsInPtz(body: string)
    requires Find(body, ReturnHomeKey, 0).Some?
    requires NoValueAfter(body, Find(body, ReturnHomeKey, 0).value + |ReturnHomeKey|)
    ensures PtzAttempt(body).None?
  {
    var range := TryExtractJsonObjectRange(body, PtzKey);
    if range.Some? {
      var (lo, hi) := range.value;
      var from := Find(body, ReturnHomeKey, 0).value + |ReturnHomeKey|;
      if from <= hi {
        NoColonBefore(body, from, hi);
      }
      NoValueInWindow(body, lo, hi, body[lo..hi + 1], ReturnHomeKey);
      assert TryParseReturnHomeDisabledFromRange(body, lo, hi).None?;
    }
  }

  /** When nothing can be read after `from`, no colon lies between `from`
      and a character that is not white space. */
  lemma NoColonBefore(body: string, from: nat, hi: nat)
    requires from <= hi < |body| && !IsSpace(body[hi])
    requires NoValueAfter(body, from)
    ensures forall j :: from <= j < hi ==> body[j] != ':'
  {
    FindColon(body, from);
  }

  /** A window ending in a character other than a colon has nothing to read
      when the body has no colon from its first key up to that character: a
      colon after the window's own first key would be one of them. */
  lemma NoValueInWindow(body: string, lo: nat, hi: nat, view: string, key: string)
    requires lo < hi < |body| && view == body[lo..hi + 1] && body[hi] != ':'
    requires Find(body, key, 0).Some?
    requires forall j :: Find(body, key, 0).value + |key| <= j < hi ==> body[j] != ':'
    ensures FieldFromRange(body, lo, hi, key).None?
  {
    if Find(view, key, 0).Some? {
      var w := Find(view, key, 0).value;
      FirstKeyNoLater(body, lo, hi, view, key, w);
      WindowNoColon(body, lo, hi, view, w + |key|);
      NoColonNoValue(view, w + |key|);
      NoValueFailsInRange(body, lo, hi, key, view);
    } else {
      assert FieldFromRange(body, lo, hi, key).None?;
    }
  }

  /** The body's first key comes no later than any key inside a window. */
  lemma FirstKeyNoLater(body: string, lo: nat, hi: nat, view: string, key: string, w: nat)
    requires lo <= hi < |body| && view == body[lo..hi + 1]
    requires Find(body, key, 0).Some? && OccursAt(view, key, w)
    ensures Find(body, key, 0).value <= lo + w
  {
    OccursInSlice(body, lo, hi + 1, key, w);
    FindNoLater(body, key, lo + w);
  }

  /** The window `view` of `body` ending at `hi` has no colon from `from` on
      when `body` has none from `lo + from` up to `hi` and none at `hi`. */
  lemma WindowNoColon(body: string, lo: nat, hi: nat, view: string, from: nat)
    requires lo <= hi < |body| && view == body[lo..hi + 1] && body[hi] != ':'
    requires forall j :: lo + from <= j < hi ==> body[j] != ':'
    ensures forall j :: from <= j < |view| ==> view[j] != ':'
  {
  }

  /** Without a colon after `from` there is nothing to read after it. */
  lemma NoColonNoValue(s: string, from: nat)
    requires forall j :: from <= j < |s| ==> s[j] != ':'
    ensures NoValueAfter(s, from)
  {
  }

  lemma NoValueFailsInBody(body: string)
    requires |body| >= 2
    requires Find(body, ReturnHomeKey, 0).Some?
    requires NoValueAfter(body, Find(body, ReturnHomeKey, 0).value + |ReturnHomeKey|)
    ensures TryParseReturnHomeDisabledFromRange(body, 0, |body| - 1).None?
  {
    WholeWindow(body);
    NoValueFailsInRange(body, 0, |body| - 1, ReturnHomeKey, body);
  }

  lemma WholeWindow(body: string)
    requires body != []
    ensures body[0..|body| - 1 + 1] == body
  {
  }

  /** In `view`, the first `key` at `k` and a colon right after it lead the
      lookup to offset `k + |key| + 1` when no white space follows. */
  lemma KeyColon(view: string, key: string, k: nat)
    requires NoneBefore(view, key, k)
    requires At(view, k, key) && k + |key| + 1 < |view| && view[k + |key|] == ':'
    requires !IsSpace(view[k + |key| + 1])
    ensures LocateValue(view, key) == Some(k + |key| + 1)
  {
    var c := k + |key|;
    AtIsOccurrence(view, k, key);
    FindFirst(view, key, 0, k);
    assert view[c..c + 1] == ":";
    FindFirst(view, ":", c, c);
  }

  /** `body[i..]` starts with `<key>:<text>`. */
  predicate FieldText(body: string, i: nat, key: string, text: string) {
    && At(body, i, key)
    && i + |key| < |body| && body[i + |key|] == ':'
    && At(body, i + |key| + 1, text)
  }

  /** Inside a window whose first occurrence of the key is at offset `k`, the
      text `<key>:` followed by a value's text leads the lookup to read that
      value. */
  lemma RangeReadsField(body: string, start: nat, end: nat, key: string, k: nat, text: string)
    requires start < end < |body|
    requires text != [] && !IsSpace(text[0])
    requires NoneBefore(body[start..end + 1], key, k)
    requires FieldText(body, start + k, key, text)
    requires start + k + |key| + 1 + |text| <= end
    ensures FieldFromRange(body, start, end, key) == ReadValue(body, start, end, k + |key| + 1)
  {
    var pos := k + |key| + 1;
    assert LocateValue(body[start..end + 1], key) == Some(pos) by {
      RangeLocates(body, start, end, key, k, text);
    }
    RangeAt(body, start, end, key, pos);
  }

  /** The hypotheses of `RangeReadsField` locate the value right after the
      colon. */
  lemma RangeLocates(body: string, start: nat, end: nat, key: string, k: nat, text: string)
    requires start < end < |body|
    requires text != [] && !IsSpace(text[0])
    requires NoneBefore(body[start..end + 1], key, k)
    requires FieldText(body, start + k, key, text)
    requires start + k + |key| + 1 + |text| <= end
    ensures LocateValue(body[start..end + 1], key) == Some(k + |key| + 1)
  {
    var view := body[start..end + 1];
    var pos := k + |key| + 1;
    AtSlice(body, start, end + 1, k, key);
    assert body[start + pos + 0] == text[0];
    KeyColon(view, key, k);
  }

  /** The text of a camera body up to the field's value. */
  const PtzHead: string := "{" + PtzKey + ":{" + ReturnHomeKey + ":"

  /** The body of a camera whose `ptz` object holds the field. */
  function PtzBody(v: FieldValue): string {
    PtzHead + Render(v) + "}}"
  }

  /** Where the pieces of the head sit. */
  lemma PtzHeadPieces()
    ensures |PtzHead| == 38
    ensures PtzHead[0] == '{' && At(PtzHead, 1, PtzKey) && PtzHead[6] == ':' && PtzHead[7] == '{'
    ensures At(PtzHead, 8, ReturnHomeKey) && PtzHead[37] == ':'
  {
    var h := PtzHead;
    var K := ReturnHomeKey;
    KeyLengths();
    AtConcat("{" + PtzKey + ":{" + K, ":");
    AtConcat("{" + PtzKey + ":{", K);
    AtTrans(h, 0, "{" + PtzKey + ":{" + K, 8, K);
    AtConcat("{" + PtzKey, ":{");
    AtTrans(h, 0, "{" + PtzKey + ":{" + K, 0, "{" + PtzKey + ":{");
    AtConcat("{", PtzKey);
    AtTrans(h, 0, "{" + PtzKey + ":{", 0, "{" + PtzKey);
    AtTrans(h, 0, "{" + PtzKey, 1, PtzKey);
    assert h[0 + 0] == ("{" + PtzKey)[0];
    assert h[0 + 6] == ("{" + PtzKey + ":{")[6];
    assert h[0 + 7] == ("{" + PtzKey + ":{")[7];
  }

  /** Where the pieces of `PtzBody(v)` sit. */
  lemma PtzBodyPieces(v: FieldValue)
    ensures var b := PtzBody(v); var n := |Render(v)|;
      && |b| == 40 + n
      && b[0] == '{' && At(b, 1, PtzKey) && b[6] == ':' && b[7] == '{'
      && At(b, 8, ReturnHomeKey) && b[37] == ':'
      && At(b, 38, Render(v)) && b[38 + n] == '}' && b[39 + n] == '}'
  {
    var b := PtzBody(v);
    var r := Render(v);
    PtzHeadPieces();
    AtConcat(PtzHead + r, "}}");
    AtConcat(PtzHead, r);
    AtTrans(b, 0, PtzHead + r, 0, PtzHead);
    AtTrans(b, 0, PtzHead + r, 38, r);
    AtTrans(b, 0, PtzHead, 1, PtzKey);
    AtTrans(b, 0, PtzHead, 8, ReturnHomeKey);
    assert b[0 + 0] == PtzHead[0] && b[0 + 6] == PtzHead[6];
    assert b[0 + 7] == PtzHead[7] && b[0 + 37] == PtzHead[37];
    assert b[38 + |r| + 0] == "}}"[0] && b[38 + |r| + 1] == "}}"[1];
  }

  /** The field's name needs no escaping inside its quotes. */
  lemma KeyNamePlain()
    ensures Unescaped(KeyName)
  {
  }

  /** The bracket scan of an object `{"<name>":<value>}` placed at `b[p]`
      stops at its closing brace: the key's literal, the colon and the value
      leave the depth at one. */
  lemma FieldObjectScan(b: string, p: nat, name: string, v: FieldValue)
    requires p + |name| + |Render(v)| + 4 < |b|
    requires Unescaped(name)
    requires b[p] == '{' && At(b, p + 1, "\"" + name + "\"")
    requires b[p + |name| + 3] == ':'
    requires At(b, p + |name| + 4, Render(v))
    requires b[p + |name| + 4 + |Render(v)|] == '}'
    ensures ScanClose(b, p, |b|, '{', '}', Outside) == Some(p + |name| + 4 + |Render(v)|)
  {
    assert ScanClose(b, p, |b|, '{', '}', Outside) == ScanClose(b, p + 1, |b|, '{', '}', ScanState(false, false, 1)) by {
      ScanOpenBrace(b, p);
    }
    MemberScan(b, p + 1, name, v);
  }

  /** An opening brace outside any string enters depth one. */
  lemma ScanOpenBrace(b: string, p: nat)
    requires p < |b| && b[p] == '{'
    ensures ScanClose(b, p, |b|, '{', '}', Outside) == ScanClose(b, p + 1, |b|, '{', '}', ScanState(false, false, 1))
  {
  }

  /** From the member's key at depth one, the scan stops at the brace that
      follows the value. */
  lemma MemberScan(b: string, i: nat, name: string, v: FieldValue)
    requires i + |name| + |Render(v)| + 3 < |b|
    requires Unescaped(name) && At(b, i, "\"" + name + "\"")
    requires b[i + |name| + 2] == ':'
    requires At(b, i + |name| + 3, Render(v))
    requires b[i + |name| + 3 + |Render(v)|] == '}'
    ensures ScanClose(b, i, |b|, '{', '}', ScanState(false, false, 1)) == Some(i + |name| + 3 + |Render(v)|)
  {
    var st1 := ScanState(false, false, 1);
    assert ScanClose(b, i, |b|, '{', '}', st1) == ScanClose(b, i + |name| + 2, |b|, '{', '}', st1) by {
      ScanPlainQuoted(b, i, |b|, '{', '}', st1, name);
    }
    assert ScanClose(b, i + |name| + 2, |b|, '{', '}', st1) == Some(i + |name| + 3 + |Render(v)|) by {
      ColonValueScan(b, i + |name| + 2, v);
    }
  }

  /** From the colon at depth one, the scan stops at the brace after the value. */
  lemma ColonValueScan(b: string, c: nat, v: FieldValue)
    requires c + |Render(v)| + 1 < |b|
    requires b[c] == ':' && At(b, c + 1, Render(v)) && b[c + 1 + |Render(v)|] == '}'
    ensures ScanClose(b, c, |b|, '{', '}', ScanState(false, false, 1)) == Some(c + 1 + |Render(v)|)
  {
    var st1 := ScanState(false, false, 1);
    assert ScanClose(b, c, |b|, '{', '}', st1) == ScanClose(b, c + 1, |b|, '{', '}', st1);
    assert ScanClose(b, c + 1, |b|, '{', '}', st1) == Some(c + 1 + |Render(v)|) by {
      ValueCloseScan(b, c + 1, v);
    }
  }

  /** From a value at depth one, the scan stops at the brace after it. */
  lemma ValueCloseScan(b: string, vs: nat, v: FieldValue)
    requires vs + |Render(v)| < |b|
    requires At(b, vs, Render(v)) && b[vs + |Render(v)|] == '}'
    ensures ScanClose(b, vs, |b|, '{', '}', ScanState(false, false, 1)) == Some(vs + |Render(v)|)
  {
    var st1 := ScanState(false, false, 1);
    var ve := vs + |Render(v)|;
    assert ScanClose(b, vs, |b|, '{', '}', st1) == ScanClose(b, ve, |b|, '{', '}', st1) by {
      ScanValue(b, vs, v, st1);
    }
    assert ScanClose(b, ve, |b|, '{', '}', st1) == Some(ve);
  }

  lemma PtzBodyScan(v: FieldValue)
    ensures ScanClose(PtzBody(v), 7, |PtzBody(v)|, '{', '}', Outside) == Some(|PtzBody(v)| - 2)
  {
    PtzBodyPieces(v);
    KeyNamePlain();
    FieldObjectScan(PtzBody(v), 7, KeyName, v);
  }

  /** The `ptz` object of `PtzBody(v)` spans from index 7 to the last-but-one
      character. */
  lemma PtzBodyObject(v: FieldValue)
    ensures TryExtractJsonObjectRange(PtzBody(v), PtzKey) == Some((7, |PtzBody(v)| - 2))
  {
    var b := PtzBody(v);
    PtzBodyPieces(v);
    AtIsOccurrence(b, 1, PtzKey);
    assert !OccursAt(b, PtzKey, 0) by {
      assert b[0..5][0] == b[0];
    }
    FindFirst(b, PtzKey, 0, 1);
    assert At(b, 6, ":");
    AtIsOccurrence(b, 6, ":");
    FindFirst(b, ":", 6, 6);
    assert SkipSpaces(b, 7, |b|) == 7;
    assert LocateValue(b, PtzKey) == Some(7);
    PtzBodyScan(v);
    assert MatchClose(b, 7, |b|, '{', '}') == Some(|b| - 2);
    ExtractAt(b, PtzKey, 7, |b| - 2);
  }

  /** Text without quotes or braces. */
  predicate PlainText(r: string) {
    forall j :: 0 <= j < |r| ==> r[j] != '"' && r[j] != '{' && r[j] != '}'
  }

  lemma ScanPlainText(b: string, vs: nat, r: string, st: ScanState)
    requires At(b, vs, r) && vs + |r| <= |b| && PlainText(r)
    requires !st.inString
    ensures ScanClose(b, vs, |b|, '{', '}', st) == ScanClose(b, vs + |r|, |b|, '{', '}', st)
  {
    forall j | vs <= j < vs + |r| ensures b[j] != '"' && b[j] != '{' && b[j] != '}' {
      assert b[vs + (j - vs)] == r[j - vs];
    }
    ScanPlainRun(b, vs, vs + |r|, |b|, '{', '}', st);
  }

  /** Scanning over a rendered value leaves the counter where it was. */
  lemma ScanValue(b: string, vs: nat, v: FieldValue, st: ScanState)
    requires At(b, vs, Render(v)) && vs + |Render(v)| <= |b|
    requires !st.inString && !st.escape
    ensures ScanClose(b, vs, |b|, '{', '}', st) == ScanClose(b, vs + |Render(v)|, |b|, '{', '}', st)
  {
    match v
    case JsonNull => ScanNull(b, vs, st);
    case Number(n) => ScanNumber(b, vs, n, st);
    case QuotedNull => ScanQuotedNull(b, vs, st);
    case QuotedNumber(n) => ScanQuotedNumber(b, vs, n, st);
  }

  lemma ScanNull(b: string, vs: nat, st: ScanState)
    requires At(b, vs, "null") && vs + 4 <= |b| && !st.inString
    ensures ScanClose(b, vs, |b|, '{', '}', st) == ScanClose(b, vs + 4, |b|, '{', '}', st)
  {
    assert PlainText("null");
    ScanPlainText(b, vs, "null", st);
  }

  lemma ScanNumber(b: string, vs: nat, n: int, st: ScanState)
    requires At(b, vs, IntText(n)) && vs + |IntText(n)| <= |b| && !st.inString
    ensures ScanClose(b, vs, |b|, '{', '}', st) == ScanClose(b, vs + |IntText(n)|, |b|, '{', '}', st)
  {
    assert PlainText(IntText(n)) by {
      IntTextChars(n);
    }
    ScanPlainText(b, vs, IntText(n), st);
  }

  lemma ScanQuotedNull(b: string, vs: nat, st: ScanState)
    requires At(b, vs, "\"null\"") && vs + 6 <= |b| && !st.inString && !st.escape
    ensures ScanClose(b, vs, |b|, '{', '}', st) == ScanClose(b, vs + 6, |b|, '{', '}', st)
  {
    assert "\"null\"" == "\"" + "null" + "\"";
    ScanPlainQuoted(b, vs, |b|, '{', '}', st, "null");
  }

  lemma ScanQuotedNumber(b: string, vs: nat, n: int, st: ScanState)
    requires At(b, vs, "\"" + IntText(n) + "\"") && vs + |IntText(n)| + 2 <= |b|
    requires !st.inString && !st.escape
    ensures ScanClose(b, vs, |b|, '{', '}', st) == ScanClose(b, vs + |IntText(n)| + 2, |b|, '{', '}', st)
  {
    assert Unescaped(IntText(n)) by {
      IntTextChars(n);
    }
    ScanPlainQuoted(b, vs, |b|, '{', '}', st, IntText(n));
  }

  /** The lengths of the two keys. */
  lemma KeyLengths()
    ensures |ReturnHomeKey| == 29 && |PtzKey| == 5
  {
  }

  /** Inside the `ptz` object of `PtzBody(v)` the lookup reads the value
      that follows the key. */
  lemma PtzRangeRead(v: FieldValue)
    ensures var b := PtzBody(v);
      && |b| >= 40
      && FieldFromRange(b, 7, |b| - 2, ReturnHomeKey) == ReadValue(b, 7, |b| - 2, 31)
  {
    var b := PtzBody(v);
    var K := ReturnHomeKey;
    var r := Render(v);
    assert && |b| == 40 + |r| && b[7] == '{' && FieldText(b, 8, K, r)
           && r != [] && !IsSpace(r[0]) && K[0] == '"' && |K| == 29 by {
      PtzBodyPieces(v);
      RenderStartsValue(v);
      KeyLengths();
    }
    FirstMemberReads(b, 7, |b| - 2, K, r, 31);
  }

  /** The first member of an object: a key right after the opening brace,
      a colon and the value's text. */
  lemma FirstMemberReads(b: string, start: nat, end: nat, key: string, text: string, pos: nat)
    requires start < end < |b| && b[start] == '{'
    requires key != [] && key[0] == '"' && pos == |key| + 2
    requires FieldText(b, start + 1, key, text)
    requires text != [] && !IsSpace(text[0])
    requires start + pos + |text| <= end
    ensures FieldFromRange(b, start, end, key) == ReadValue(b, start, end, pos)
  {
    assert NoneBefore(b[start..end + 1], key, 1) by {
      assert b[start..end + 1][0] == b[start];
      NoneBeforeFirst(b[start..end + 1], key);
    }
    RangeReadsField(b, start, end, key, 1, text);
  }

  /** The value's text sits at offset 31 of the `ptz` object, followed by its
      closing brace. */
  lemma PtzValuePlaced(v: FieldValue)
    ensures var b := PtzBody(v);
      |b| >= 40 && Placed(b, 7, |b| - 2, 31, Render(v))
  {
    PtzBodyPieces(v);
  }

  /** Round trip over the whole parser: a `ptz` object holding the field in
      any of its shapes reads back as that shape's meaning. */
  lemma PtzBodyRoundTrip(v: FieldValue)
    ensures TryParseReturnHomeDisabled(PtzBody(v)) == Some(Disables(v))
  {
    var b := PtzBody(v);
    PtzRangeRead(v);
    var end := |b| - 2;
    assert TryParseReturnHomeDisabledFromRange(b, 7, end) == ReadValue(b, 7, end, 31);
    assert TryExtractJsonObjectRange(b, PtzKey) == Some((7, end)) by {
      PtzBodyObject(v);
    }
    assert ReadValue(b, 7, end, 31) == Some(Disables(v)) by {
      PtzValuePlaced(v);
      ReadValueOf(b, 7, end, 31, v);
    }
    assert PtzAttempt(b) == Some(Disables(v));
  }
}

=== FILE: string_utils.dfy ===
/** `TrimWide` from the string utilities: strip every code unit that compares
    less than or equal to a space from both ends of a wide string. */
module StringUtils {

  /** The code units `TrimWide` removes: everything up to and including `' '`. */
  predicate IsBlank(c: char) {
    c <= ' '
  }

  predicate AllBlank(s: string) {
    forall k :: 0 <= k < |s| ==> IsBlank(s[k])
  }

  /** `r` is the slice of `s` starting at `i` with only blanks on either side. */
  predicate TrimmedAt(s: string, r: string, i: nat) {
    i + |r| <= |s| && r == s[i..i + |r|] && AllBlank(s[..i]) && AllBlank(s[i + |r|..])
  }

  /** The first loop: advance `start` past leading blanks. */
  function TrimStart(s: string, start: nat): (i: nat)
    requires start <= |s|
    decreases |s| - start
    ensures start <= i <= |s|
    ensures forall k :: start <= k < i ==> IsBlank(s[k])
    ensures i == |s| || !IsBlank(s[i])
  {
    if start < |s| && IsBlank(s[start]) then TrimStart(s, start + 1) else start
  }

  /** The second loop: pull `end` back over trailing blanks, never below `start`. */
  function TrimEnd(s: string, start: nat, end: nat): (j: nat)
    requires start <= end <= |s|
    decreases end
    ensures start <= j <= end
    ensures forall k :: j <= k < end ==> IsBlank(s[k])
    ensures j == start || !IsBlank(s[j - 1])
  {
    if end > start && IsBlank(s[end - 1]) then TrimEnd(s, start, end - 1) else end
  }

  function TrimWide(s: string): (r: string)
    ensures s == [] ==> r == s
    ensures |r| <= |s|
    ensures r != [] ==> !IsBlank(r[0]) && !IsBlank(r[|r| - 1])
    ensures r == [] <==> AllBlank(s)
    ensures exists i :: TrimmedAt(s, r, i)
  {
    if s == [] then
      assert TrimmedAt(s, s, 0);
      s
    else
      var i := TrimStart(s, 0);
      var j := TrimEnd(s, i, |s|);
      assert TrimmedAt(s, s[i..j], i);
      s[i..j]
  }

  /** The trimmed slice is unique: any blank-free-ended slice with only blanks
      around it is the one `TrimWide` returns. */
  lemma TrimUnique(s: string, r: string, i: nat)
    requires TrimmedAt(s, r, i)
    requires r != [] ==> !IsBlank(r[0]) && !IsBlank(r[|r| - 1])
    ensures TrimWide(s) == r
  {
    var t := TrimWide(s);
    var i': nat :| TrimmedAt(s, t, i');
    if r == [] {
      assert AllBlank(s) by {
        forall k | 0 <= k < |s| ensures IsBlank(s[k]) {
          if k < i { assert s[..i][k] == s[k]; }
          else { assert s[i + |r|..][k - i] == s[k]; }
        }
      }
    } else {
      assert r[0] == s[i] && r[|r| - 1] == s[i + |r| - 1];
    }
  }

  /** Trimming twice changes nothing more than trimming once. */
  lemma TrimIdempotent(s: string)
    ensures TrimWide(TrimWide(s)) == TrimWide(s)
  {
    var r := TrimWide(s);
    assert TrimmedAt(r, r, 0);
    TrimUnique(r, r, 0);
  }
}

=== FILE: text.dfy ===
/** Character classes and searches of the C and C++ standard libraries that the
    scanners rely on, modelled on `seq<char>`. */
module Text {
  import opened Wrappers

  /** `std::isspace` in the "C" locale: space, tab, line feed, vertical tab,
      form feed and carriage return. */
  predicate IsSpace(c: char) {
    c == ' ' || ('\t' <= c <= '\r')
  }

  predicate IsDigit(c: char) {
    '0' <= c <= '9'
  }

  function DigitValue(c: char): (d: nat)
    requires IsDigit(c)
    ensures d < 10
  {
    c as int - '0' as int
  }

  /** The character a C string pointer into `s` reads at index `k`: past the
      end of a `std::string` sits its terminating NUL. */
  function CharAt(s: string, k: nat): char {
    if k < |s| then s[k] else '\0'
  }

  /** `pat` occurs in `s` starting at index `k`. */
  predicate OccursAt(s: string, pat: string, k: nat) {
    k + |pat| <= |s| && s[k..k + |pat|] == pat
  }

  /** `t` appears in `s` starting at index `i`, stated character by character. */
  predicate At(s: string, i: nat, t: string) {
    i + |t| <= |s| && forall k :: 0 <= k < |t| ==> s[i + k] == t[k]
  }

  lemma AtSplit(s: string, i: nat, a: string, b: string)
    ensures At(s, i, a + b) <==> At(s, i, a) && At(s, i + |a|, b)
  {
    if At(s, i, a) && At(s, i + |a|, b) {
      forall k | 0 <= k < |a + b| ensures s[i + k] == (a + b)[k] {
        if k >= |a| { assert s[i + |a| + (k - |a|)] == b[k - |a|]; }
      }
    }
    if At(s, i, a + b) {
      forall k | 0 <= k < |a| ensures s[i + k] == a[k] {
        assert (a + b)[k] == a[k];
      }
      forall k | 0 <= k < |b| ensures s[i + |a| + k] == b[k] {
        assert s[i + (|a| + k)] == (a + b)[|a| + k];
      }
    }
  }

  /** An appearance inside the window `s[lo..hi]` is an appearance there. */
  lemma AtSlice(s: string, lo: nat, hi: nat, k: nat, t: string)
    requires lo <= hi <= |s| && lo + k + |t| <= hi
    requires At(s, lo + k, t)
    ensures At(s[lo..hi], k, t)
  {
    forall j | 0 <= j < |t| ensures s[lo..hi][k + j] == t[j] {
      assert s[lo + k + j] == t[j];
    }
  }

  /** A piece of an appearance is an appearance. */
  lemma AtInner(s: string, i: nat, t: string, a: nat, u: string)
    requires At(s, i, t) && a + |u| <= |t| && t[a..a + |u|] == u
    ensures At(s, i + a, u)
  {
    forall j | 0 <= j < |u| ensures s[i + a + j] == u[j] {
      assert t[a..a + |u|][j] == t[a + j];
    }
  }

  /** An appearance inside an appearance. */
  lemma AtTrans(s: string, i: nat, t: string, a: nat, u: string)
    requires At(s, i, t) && At(t, a, u)
    ensures At(s, i + a, u)
  {
    forall j | 0 <= j < |u| ensures s[i + a + j] == u[j] {
      assert s[i + (a + j)] == t[a + j];
    }
  }

  /** The two halves of a concatenation appear in it. */
  lemma AtConcat(x: string, y: string)
    ensures At(x + y, 0, x) && At(x + y, |x|, y)
  {
    forall j | 0 <= j < |y| ensures (x + y)[|x| + j] == y[j] {
    }
  }

  /** No occurrence of `pat` in `s` before index `k`. */
  predicate NoneBefore(s: string, pat: string, k: nat) {
    forall j :: 0 <= j < k ==> !OccursAt(s, pat, j)
  }

  /** A pattern cannot occur where its first character is missing. */
  lemma NoneBeforeFirst(s: string, pat: string)
    requires s != [] && pat != [] && s[0] != pat[0]
    ensures NoneBefore(s, pat, 1)
  {
    if |pat| <= |s| {
      assert s[0..|pat|][0] == s[0];
    }
  }

  lemma AtIsOccurrence(s: string, i: nat, t: string)
    ensures At(s, i, t) <==> OccursAt(s, t, i)
  {
    if At(s, i, t) {
      assert s[i..i + |t|] == t;
    }
  }

  /** The first occurrence comes no later than any occurrence. */
  lemma FindNoLater(s: string, pat: string, m: nat)
    requires OccursAt(s, pat, m) && Find(s, pat, 0).Some?
    ensures Find(s, pat, 0).value <= m
  {
  }

  /** An occurrence inside the window `s[lo..hi]` is an occurrence in `s`. */
  lemma OccursInSlice(s: string, lo: nat, hi: nat, pat: string, k: nat)
    requires lo <= hi <= |s| && OccursAt(s[lo..hi], pat, k)
    ensures OccursAt(s, pat, lo + k)
  {
    AtIsOccurrence(s[lo..hi], k, pat);
    forall j | 0 <= j < |pat| ensures s[lo + k + j] == pat[j] {
      assert s[lo..hi][k + j] == s[lo + k + j];
    }
    AtIsOccurrence(s, lo + k, pat);
  }

  /** `s.find(pat, from)`: the first occurrence of `pat` at or after `from`,
      `None` standing for `std::string::npos`. */
  function Find(s: string, pat: string, from: nat): (r: Option<nat>)
    decreases |s| - from
    ensures r.Some? ==> from <= r.value && OccursAt(s, pat, r.value)
    ensures r.Some? ==> forall j :: from <= j < r.value ==> !OccursAt(s, pat, j)
    ensures r.None? ==> forall j :: from <= j ==> !OccursAt(s, pat, j)
  {
    if from + |pat| > |s| then None
    else if s[from..from + |pat|] == pat then Some(from)
    else Find(s, pat, from + 1)
  }

  /** A first occurrence is what `Find` reports. */
  lemma FindFirst(s: string, pat: string, from: nat, k: nat)
    requires from <= k && OccursAt(s, pat, k)
    requires forall j :: from <= j < k ==> !OccursAt(s, pat, j)
    ensures Find(s, pat, from) == Some(k)
  {
  }

  /** An occurrence inside a window of `s` is an occurrence in `s`: a pattern
      absent from the whole string is absent from every slice of it. */
  lemma {:induction false} FindNoneInSlice(s: string, pat: string, lo: nat, hi: nat, from: nat)
    requires lo <= hi <= |s|
    requires Find(s, pat, 0).None?
    ensures Find(s[lo..hi], pat, from).None?
  {
    var w := s[lo..hi];
    if Find(w, pat, from).Some? {
      var k := Find(w, pat, from).value;
      AtIsOccurrence(w, k, pat);
      forall j | 0 <= j < |pat| ensures s[lo + k + j] == pat[j] {
        assert w[k + j] == s[lo + k + j];
      }
      AtIsOccurrence(s, lo + k, pat);
      assert false;
    }
  }

  /** The loop `while (i < limit && isspace(s[i])) ++i;`. */
  function SkipSpaces(s: string, i: nat, limit: nat): (j: nat)
    requires i <= limit <= |s|
    decreases limit - i
    ensures i <= j <= limit
    ensures j == limit || !IsSpace(s[j])
  {
    if i < limit && IsSpace(s[i]) then SkipSpaces(s, i + 1, limit) else i
  }

  /** `s[i..j]` is all white space. */
  predicate SpacesBetween(s: string, i: nat, j: nat)
    requires i <= j <= |s|
  {
    forall k :: i <= k < j ==> IsSpace(s[k])
  }

  /** The white-space loop stops at the first character that is not white
      space: everything it passes is white space. */
  lemma {:induction false} SkipSpacesFirst(s: string, i: nat, limit: nat)
    requires i <= limit <= |s|
    ensures SpacesBetween(s, i, SkipSpaces(s, i, limit))
    decreases limit - i
  {
    if i < limit && IsSpace(s[i]) {
      SkipSpacesFirst(s, i + 1, limit);
    }
  }

  /** Conversely, after a run of white space the loop stops at the first
      character that is not white space, or at the limit. */
  lemma {:induction false} SkipSpacesTo(s: string, i: nat, p: nat, limit: nat)
    requires i <= p <= limit <= |s|
    requires SpacesBetween(s, i, p) && (p == limit || !IsSpace(s[p]))
    ensures SkipSpaces(s, i, limit) == p
    decreases p - i
  {
    if i < p {
      assert IsSpace(s[i]);
      SkipSpacesTo(s, i + 1, p, limit);
    }
  }

  /** A one-character pattern occurs exactly where that character is. */
  lemma OccursAtChar(s: string, c: char, k: nat)
    ensures OccursAt(s, [c], k) <==> k < |s| && s[k] == c
  {
    if k < |s| {
      assert s[k..k + 1] == [s[k]];
    }
  }

  /** The digit loop of `strtoll`. */
  function SkipDigits(s: string, i: nat, limit: nat): (j: nat)
    requires i <= limit <= |s|
    decreases limit - i
    ensures i <= j <= limit
    ensures forall k :: i <= k < j ==> IsDigit(s[k])
    ensures j == limit || !IsDigit(s[j])
  {
    if i < limit && IsDigit(s[i]) then SkipDigits(s, i + 1, limit) else i
  }
}

=== FILE: wrappers.dfy ===
/** Optional results, standing in for the C++ `bool Try...(…, T* out)` pattern:
    `None` is a `false` return, `Some(v)` a `true` return with `*out = v`. */
module Wrappers {

  datatype Option<+T> = None | Some(value: T)
}
